=== FILE: README.md ===
# telegram_auto_send, modelled in Dafny

telegram_auto_send has two programs.

- **main.py** is an HTTP bridge in front of a Telethon client. `POST /api/call` carries a JSON body `{"method": …, "params": {…}}`. `handle_call` does the following:
  - rejects a missing or empty method name;
  - looks the name up first in its own table of custom handlers (`update_profile`), then among the client's attributes;
  - refuses attributes that are not callable;
  - calls the method with `params` as keyword arguments;
  - answers with a JSON envelope (`status` and `result`, or `status` and `error`) and an HTTP code.

  Results are serialised with `DateTimeEncoder`. It writes datetimes as ISO text and bytes as integer lists. Telethon objects and anything else with `to_dict` are written as their dictionaries.
- **ql_send_msg.py** is a batch sender.
  - `parse_send_list` reads a configuration text of `target message` lines.
  - `main` falls back to a comma- or line-separated target list sharing one message, or else to the command line.
  - `send_telegram_message` posts each task to the bridge as a `send_message` call. The target is converted to an integer when it is numeric. The send is judged by the reply.
  - `main` counts the successes.

The model is a set of pure functions over immutable datatypes. Everything the programs cannot decide themselves is a parameter:
- the Telegram client, the platform's answer to a profile update, and the interpreter's `TypeError` texts are fields of `Dispatch.Bridge`;
- the HTTP replies the sender gets are given as `Sender.HttpReply` values;
- the script's settings, its environment and `sys.argv` are given as a `Sender.Config`.

Modules, one per file:

| module | file | what it holds |
|---|---|---|
| `Wrappers` | wrappers.dfy | `Option` and `Result` |
| `Json` | json.dfy | decoded JSON, Python truthiness, `dict.get`, `**kwargs` binding |
| `Text` | text.dfy | ASCII `isspace`, `strip`, `split(None, 1)`, `splitlines`, decimal digits |
| `IsoTime` | isotime.dfy | `datetime.isoformat()` and a reader for its output |
| `Encoder` | encoder.dfy | `DateTimeEncoder.default` and the `json.dumps` walk over a result |
| `Dispatch` | dispatch.dfy | `handle_call`, `update_profile`, `CUSTOM_METHODS` |
| `SendList` | sendlist.dfy | `parse_send_list` |
| `Sender` | sender.dfy | target coercion, reply classification, target lists, task planning, success count |

## Model

| member | source | states |
|---|---|---|
| Json.Get | main.py:97-98 | `dict.get` on a decoded object is absent exactly when no member has the key; otherwise it is the value of the last member with that key |
| Json.ToMap | main.py:112-114 | the keyword arguments bound by `**params` are exactly the object's keys, each bound to what `get` reads for it |
| Dispatch.HandleCall | main.py:94-98 | no envelope (the handler itself fails) exactly when the body is not decodable JSON or not an object; otherwise the reply is decided by the `method` member and the `params` member, `{}` when absent; every reply has code 200, 400, 404 or 500, and 200 exactly when the status is "success" |
| Dispatch.Handle | main.py:97-134 | a missing or falsy method gets 400 "Method name is required"; a truthy list or object name fails as unhashable (500); a truthy number or `true` fails the attribute lookup (500); a string name is dispatched |
| Dispatch.Resolve | main.py:109-134 | the custom table comes first; then a callable client attribute; an attribute that is not callable and a name found nowhere are told apart; the four cases are exclusive and each holds exactly under its condition |
| Dispatch.Dispatch | main.py:109-134 | code 404 with "Method '<name>' not found" exactly for a name in neither table; code 400 with "Attribute '<name>' is not callable" exactly for a non-callable attribute; otherwise 200 or 500 |
| Dispatch.Finish | main.py:136-149 | a raised exception becomes 500 carrying its text; a returned value becomes "success" exactly when it serialises, carrying the serialised value; a serialisation error becomes 500 carrying its text |
| Dispatch.ProfileRequest | main.py:77-78 | the forwarded arguments are exactly the input restricted to `about`, `first_name` and `last_name`, with the same values |
| Dispatch.UpdateProfile | main.py:70-87 | no platform call exactly when no profile field is given, and then the "No valid parameters…" text; otherwise exactly the profile fields are sent, a platform exception is re-raised, and a platform return gives "Profile updated successfully" |
| Dispatch.MissingMethodRejected | main.py:100-104 | a missing or falsy method gets the 400 reply whatever the client and the handlers would do |
| Dispatch.ParamsDefaultEmpty | main.py:98 | leaving `params` out is the same as sending `{}` |
| Dispatch.CustomTakesPriority | main.py:109-114 | a custom name runs `update_profile` with the params bound as keywords, whatever client attribute has the same name |
| Dispatch.UnknownMethodNotFound | main.py:130-134 | a string name in neither table gets 404 with the exact "Method '<name>' not found" text |
| Dispatch.AttributeNotCallable | main.py:115-123 | a non-callable client attribute gets 400, not 404, with the exact "Attribute '<name>' is not callable" text |
| Dispatch.ClientMethodOutcome | main.py:124-149 | a callable client method runs with the params object bound as keywords, no params meaning no arguments; its raise or return is turned into the envelope by `Finish`; non-object params fail the binding with a 500 |
| Dispatch.ParamsMustBeObject | main.py:110-129 | for any handler that would run, params that are not an object give the interpreter's `TypeError` as a 500 |
| Dispatch.ScenarioUpdateBio | main.py:70-87 | setting `about` through `update_profile` succeeds with "Profile updated successfully" when the platform returns |
| Dispatch.ScenarioUpdateNothing | main.py:80-81 | `update_profile` with `{}` succeeds with the "No valid parameters…" text |
| Dispatch.ScenarioEmptyBody | main.py:100-104 | `{}` as the body gets the 400 "Method name is required" reply |
| Dispatch.ScenarioUnknown | main.py:130-134 | an unknown method name gets 404 naming it |
| Encoder.Default | main.py:58-68 | first match in the order datetime, bytes, `TLObject`, other `to_dict`: a datetime always gives text that reads back as that datetime; bytes give themselves exactly when there is no datetime; without both, `TLObject`'s `to_dict` is called if present, and only then any other `to_dict`; a mapping or an exception comes from the `to_dict` the object has; the base `TypeError` happens exactly when no rule applies |
| Encoder.CallToDict | main.py:64-67 | calling `to_dict()` gives a mapping exactly when it returns, and its exception otherwise |
| Encoder.ByteList | main.py:62-63 | `list(b)` is a list of the same length whose elements are the bytes as integers |
| Encoder.Collect | main.py:142 | a walk over elements succeeds exactly when each element does, keeping their values in order; otherwise it fails with the first element failure |
| Encoder.EncodeEmbed | main.py:136-142 | a result that already is JSON data is written back unchanged |
| Encoder.EncodeObject | main.py:58-68 | serialising an object is serialising what `default` returned for it, or failing with what it raised |
| Encoder.EncodeDateTime | main.py:60-61 | a datetime is written as its ISO text, which reads back as the same datetime |
| Encoder.EncodeBytes | main.py:62-63 | bytes are written as a list of the same length, each element the byte at that position, in 0..255 |
| Encoder.EncodeToDict | main.py:64-67 | a `TLObject`, and failing that any object with `to_dict`, is written as the serialisation of what `to_dict()` returns, or fails with the exception it raises |
| Encoder.EncodeUnsupported | main.py:68 | an object no rule applies to fails the serialisation with "Object of type <T> is not JSON serializable" |
| Encoder.EncodeDictKeys | main.py:136-142 | a dict serialises exactly when every value does, and then with the same keys in the same order, each value serialised |
| Encoder.EncodeListElements | main.py:136-142 | a list serialises exactly when every element does, element by element in order |
| IsoTime.ParseIsoFormat | main.py:60-61 | reading the ISO text of a datetime gives back that datetime, microsecond and UTC offset included |
| IsoTime.ReadClockOf | main.py:60-61 | the time-of-day part of the ISO text reads back as the hour, minute, second, microsecond and offset |
| IsoTime.IsoFormatInjective | main.py:60-61 | two datetimes with the same ISO text are equal |
| Text.Strip | ql_send_msg.py:103 | the stripped line has no whitespace at either end |
| Text.StripIsSlice | ql_send_msg.py:103 | `strip` keeps a contiguous part of the line and removes only whitespace before and after it |
| Text.StripEmpty | ql_send_msg.py:105 | a line strips to nothing exactly when it is all whitespace |
| Text.StripTrimmed | ql_send_msg.py:103 | a line without whitespace at its ends is left unchanged |
| Text.StripIdempotent | ql_send_msg.py:103 | stripping twice is stripping once |
| Text.SplitFirst | ql_send_msg.py:111 | `split(None, 1)` gives at most two parts, none empty |
| Text.SplitTrimmed | ql_send_msg.py:111-115 | for a stripped line: no parts for an empty line, the line itself when it has no whitespace, and otherwise a first token, a whitespace gap and the rest, which starts at the first non-whitespace character after the gap |
| Text.SplitLines | ql_send_msg.py:102 | no line holds a line boundary; non-empty text has at least one line |
| Text.SplitLinesCons | ql_send_msg.py:102 | a boundary-free first line followed by a line feed and more text is split off first |
| Text.SplitJoinLines | ql_send_msg.py:102 | joining boundary-free lines with line feeds and splitting gives them back, provided the last line is non-empty (a trailing empty line is lost, as `splitlines` drops it) |
| SendList.Entries | ql_send_msg.py:100-107 | the kept lines are stripped, not blank and not comments, and there are no more of them than lines |
| SendList.EntriesSelect | ql_send_msg.py:101-107 | for any lines, padded ones included, the kept lines are exactly the stripped lines that are neither blank nor comments, each from its own input line, in input order, none left out |
| SendList.Prefer | ql_send_msg.py:118 | the setting in the script wins over the environment variable unless it is empty |
| SendList.ParseLine | ql_send_msg.py:109-122 | a line with whitespace gives its first token and the rest of the line after the gap, inner spacing kept; a target-only line gives the target with the default message; the line gives nothing exactly when it is target-only and there is no non-empty default |
| SendList.ParseLines | ql_send_msg.py:109-123 | at most one task per line; each task has a non-empty target without whitespace that does not start with `#`, and a non-empty message |
| SendList.ParseSendList | ql_send_msg.py:91-123 | an absent or empty list gives no task; there are never more tasks than entry lines; every task is well formed as above |
| SendList.EntriesAppend | ql_send_msg.py:102-107 | the entry lines of two blocks of lines are those of the first followed by those of the second |
| SendList.ParseLinesAppend | ql_send_msg.py:109-123 | the tasks of two blocks of entry lines are those of the first followed by those of the second |
| SendList.NoEntries | ql_send_msg.py:105-106 | lines that are all blank or comments give no entry line |
| SendList.OnlyCommentsYieldNothing | ql_send_msg.py:102-107 | a list of only blank lines and comments gives no task |
| SendList.ParseSendListLines | ql_send_msg.py:101-123 | lines are read independently and in order: the tasks of a first line and more text are that line's tasks followed by the text's tasks |
| SendList.ParseLineOf | ql_send_msg.py:111-114 | the line `target message` of a writable task parses back to that task |
| SendList.ParseLinesOf | ql_send_msg.py:109-123 | the lines of writable tasks parse back to the tasks, in order |
| SendList.EntriesOfClean | ql_send_msg.py:102-107 | stripped lines that are neither blank nor comments are all kept, unchanged |
| SendList.ParseRender | ql_send_msg.py:91-123 | writing writable tasks one per line and parsing the text gives back the same tasks in the same order, whatever the default message; a writable task has a non-empty target without whitespace not starting with `#`, and a non-empty message without line breaks or whitespace at its ends |
| Sender.Coerce | ql_send_msg.py:59-66 | the target becomes an integer exactly when it is digits or `-` then digits and no longer than the 4300 digits `int` accepts, with the value `int` reads; otherwise, the caught `ValueError` included, it stays the text itself |
| Sender.CoerceIntText | ql_send_msg.py:61-66 | the decimal text of any integer of at most 4300 digits, negative ones included, is sent as that integer; a longer one is sent as its text |
| Sender.CoerceOverlongKeepsText | ql_send_msg.py:61-66 | a string of 4301 digits passes the digit test, but `int` rejects it and the target is sent as text |
| Sender.CoerceKeepsNames | ql_send_msg.py:57-61 | `@` user names, `+` phone numbers and a lone `-` stay text |
| Sender.CoerceLeadingZeros | ql_send_msg.py:63 | leading zeros are dropped: "007" is sent as 7 and "-007" as -7 |
| Sender.SendMessage | ql_send_msg.py:44-89 | an empty target or message fails before any request is built; otherwise the `send_message` payload with the coerced entity is posted, and the send succeeds exactly when the reply is code 200 with a JSON object whose `status` is "success" |
| Sender.DeliveredIffSucceeded | ql_send_msg.py:72-82 | against the bridge, a send counts as successful exactly when the bridge's call succeeded; error envelopes, non-200 codes and the bridge's own failures all count as failures |
| Sender.PayloadCallsSendMessage | ql_send_msg.py:48-70 | the posted payload makes the bridge call the client's `send_message` with exactly `entity` (the coerced target) and `message` as keyword arguments |
| Sender.ReplaceCommas | ql_send_msg.py:139 | commas become line feeds; all other characters and the length are kept |
| Sender.KeepStripped | ql_send_msg.py:139 | the kept pieces are stripped and non-empty, at most one per line |
| Sender.KeepStrippedSelect | ql_send_msg.py:139 | for any pieces, padded ones included, the kept pieces are exactly the non-empty stripped pieces, each from its own input piece, in input order, none left out |
| Sender.SplitTargets | ql_send_msg.py:139 | every target from the list is non-empty with no whitespace at its ends |
| Sender.SplitTargetsSelect | ql_send_msg.py:139 | the targets are exactly the non-empty stripped pieces of the list cut at commas and line boundaries, in order, none left out |
| Sender.SplitTargetsExample | ql_send_msg.py:139 | `"a, b"` gives the targets `a` and `b`: the space after the comma is stripped |
| Sender.SplitTargetsSeparated | ql_send_msg.py:139 | no target from the list contains a comma or a line boundary |
| Sender.SplitJoinCommas | ql_send_msg.py:139 | non-empty targets with no whitespace at their ends and no comma or line boundary, written as a comma-separated list, are read back as the same targets in the same order |
| Sender.SendListSource | ql_send_msg.py:128 | the send list in the script is used when it has any non-whitespace content, comment lines included; otherwise `TG_SEND_LIST` |
| Sender.Fallback | ql_send_msg.py:132-144 | with both a target list and a default message, one task per listed target in order, each with that message; otherwise the command line's target and message when there are at least two arguments, else nothing |
| Sender.PlanTasks | ql_send_msg.py:128-145 | the send list's tasks when it gives any; otherwise the fallback tasks, with the same default message |
| Sender.PlannedTasksComplete | ql_send_msg.py:128-145 | every planned task has a non-empty target and message unless the command line supplies empty ones |
| Sender.CommentedListHidesEnvironment | ql_send_msg.py:128 | when the send list in the script has any content, even only comments, `TG_SEND_LIST` does not affect the plan |
| Sender.SuccessCount | ql_send_msg.py:153-157 | the number of successful sends among the first n tasks is at most n |
| Sender.AllSentIff | ql_send_msg.py:153-159 | the count equals the number of tasks exactly when every send succeeded |
| Sender.SendAll | ql_send_msg.py:153-159 | the loop sends every task once, in order; its count is the number of successful sends and never exceeds the number of tasks |
| Sender.RunBatch | ql_send_msg.py:125-159 | the planned tasks are sent; with no task nothing is sent and the count is 0; the count never exceeds the number of tasks |

## Left out

- The aiohttp application, its routes, `start_client`/`stop_client`, `run_until_disconnected` and the process entry points (main.py:151-195) are transport and process wiring, not decisions.
- Telethon itself is outside the model: client construction, every client method and `UpdateProfileRequest`. Each is a function field of `Dispatch.Bridge` that returns or raises.
- `hasattr`/`getattr`/`callable` and `asyncio.iscoroutinefunction` are replaced by the map `Bridge.surface` from names to `Attr(callable, suspends)`. Both call styles give the same outcome, so `suspends` is never consulted.
- Logging and every `print` are left out, because they have no effect on the result.
- Dispatch.Bridge: the interpreter's `TypeError` texts are abstract (`typeError`), because their wording depends on the Python version. This covers unhashable names, non-string attribute names and `**` of a non-mapping. The last carries the handler's name, since CPython's text names the callee (`update_profile() argument after ** must be a mapping, not NoneType`), so different handlers may give different texts.
- Dispatch.HandleCall: an undecodable body or a non-object body is `Fault`, meaning no envelope. The `except` handler's own `NameError` escapes to aiohttp. What aiohttp then sends is modelled only as `Sender.ReplyOf`'s plain 500.
- Dispatch.Outcome: `asyncio.CancelledError`, `KeyboardInterrupt` and other `BaseException`s escape `except Exception` (main.py:144) and are not modelled. A handler either returns or raises an `Exception`.
- Encoder.Value: floats, tuples, sets, non-string dict keys, NaN/Infinity and the circular-reference check of `json.dumps` are not modelled. Dict keys are strings. Integers of any size serialise: CPython 3.11 and later refuse to write an `int` of more than 4300 digits, and that `ValueError` would become a 500 at main.py:144-149; such a reply is not modelled.
- Json.Json: JSON numbers are integers only. A float method name (`0.0` would get the 400, `1.5` the `hasattr` `TypeError` 500), float parameters and float reply bodies are not modelled, and neither is `json.loads` refusing an integer literal of more than 4300 digits.
- Encoder.Encode: produces the JSON tree, not its text. Escaping and spacing of the output are left out.
- Encoder.Embed: keeps duplicate keys, which a Python dict cannot hold. It is used only to state that JSON data is written back unchanged.
- IsoTime.IsoFormat: UTC offsets are whole minutes only. Python also prints offsets with seconds or microseconds as `+HH:MM:SS[.ffffff]`, and such offsets are excluded here. `fold` and named time zones are left out too.
- Text.IsSpace: whitespace is ASCII only. Python's `str.isspace`, `strip` and `split` also treat Unicode spaces such as U+00A0 and U+3000 as whitespace, so a line separated by an ideographic space is split differently.
- Text.SplitLines: only ASCII line boundaries are handled. Python's `splitlines` also breaks at U+0085, U+2028 and U+2029.
- Sender.Coerce: digits are ASCII only. Python's `isdigit` accepts other digits. `int` reads some of them (Arabic-Indic digits, for example) and rejects others (superscripts). A rejected one raises `ValueError`, which is caught and leaves the target as text. The 4300-digit limit is the default of CPython 3.11 and later; an interpreter without the limit, or one that raises it through `PYTHONINTMAXSTRDIGITS`, converts longer digit strings too. Digits are counted with leading zeros included.
- Sender.SendMessage: `requests.post`, `TG_SERVICE_URL` and the 30-second timeout are replaced by the given reply. A refused connection, a timeout or any other exception is `NoAnswer`, and an undecodable body is a reply without JSON. All of these are failures. `Sender.SendAll` takes the replies as a function `net` of the task position.
- Sender.Config: `os.getenv` and `sys.argv` are replaced by its fields. The script's edited settings are given as values.

=== FILE: dispatch.dfy ===
/**
 * The `/api/call` handler of main.py: validate the decoded body, resolve the method name
 * against the custom table and then the client's attributes, invoke it with the request's
 * params as keyword arguments, and wrap the outcome in a status envelope with an HTTP code.
 */
module Dispatch {
  import opened Wrappers
  import opened Json
  import Encoder

  /** An attribute of the Telethon client as `callable` and `iscoroutinefunction` see it. */
  datatype Attr = Attr(callable: bool, suspends: bool)

  /** What running a handler does: return a value, or raise an exception whose `str` is `msg`. */
  datatype Outcome = Return(value: Encoder.Value) | Raise(msg: string)

  /** The `TypeError`s the interpreter itself raises before any handler runs. */
  datatype TypeFault =
    | UnhashableName(name: Json)      // `name in CUSTOM_METHODS` for a list or dict name
    | NonStringName(name: Json)       // `hasattr(client, name)` for a number or `true`
    | ParamsNotMapping(handler: string, params: Json)  // `handler(**params)` when params is not an object

  /**
   * Everything outside this module that a call can observe: the client's attribute surface,
   * what calling a client method with given keyword arguments does, what the platform's
   * `UpdateProfileRequest` does with given fields, and the interpreter's `TypeError` texts.
   */
  datatype Bridge = Bridge(
    surface: map<string, Attr>,
    invoke: (string, map<string, Json>) -> Outcome,
    updateProfile: map<string, Json> -> Outcome,
    typeError: TypeFault -> string)

  /** The JSON reply: `{"status": "success", "result": …}` with 200, or
      `{"status": "error", "error": …}` with the given code. */
  datatype Envelope = Succeeded(result: Json) | Failed(code: int, error: string) {

    function Code(): int {
      if Succeeded? then 200 else code
    }

    function Status(): string {
      if Succeeded? then "success" else "error"
    }

    function ToJson(): Json {
      if Succeeded? then JObject([("status", JStr("success")), ("result", result)])
      else JObject([("status", JStr("error")), ("error", JStr(error))])
    }
  }

  /** A reply, or `Fault`: the handler itself raises and no envelope is written. */
  datatype Response = Reply(envelope: Envelope) | Fault

  const MethodRequired := "Method name is required"
  const NoValidParams := "No valid parameters provided (about, first_name, last_name)"
  const ProfileUpdated := "Profile updated successfully"

  function NotFoundText(name: string): string {
    "Method '" + name + "' not found"
  }

  function NotCallableText(name: string): string {
    "Attribute '" + name + "' is not callable"
  }

  // ---------------------------------------------------------------- update_profile

  /** The keyword arguments `UpdateProfileRequest` accepts. */
  const ProfileFields: set<string> := {"about", "first_name", "last_name"}

  /** The arguments `update_profile` forwards: the input restricted to the profile fields. */
  function ProfileRequest(kwargs: map<string, Json>): (args: map<string, Json>)
    ensures args.Keys == kwargs.Keys * ProfileFields
    ensures forall k :: k in args ==> args[k] == kwargs[k]
  {
    map k | k in kwargs && k in ProfileFields :: kwargs[k]
  }

  /** One run of `update_profile`: the platform request it made, if any, and its outcome. */
  datatype ProfileRun = ProfileRun(request: Option<map<string, Json>>, outcome: Outcome)

  /**
   * `update_profile(**kwargs)`: with no profile field among the arguments it answers that
   * none was given and makes no platform call; otherwise it sends exactly the profile
   * fields, re-raises what the platform raises, and reports success when it returns.
   */
  function UpdateProfile(kwargs: map<string, Json>, platform: map<string, Json> -> Outcome): (r: ProfileRun)
    ensures r.request.None? <==> kwargs.Keys !! ProfileFields
    ensures r.request.None? ==> r.outcome == Return(Encoder.Str(NoValidParams))
    ensures r.request.Some? ==> r.request.value.Keys == kwargs.Keys * ProfileFields
                                && forall k :: k in r.request.value ==> r.request.value[k] == kwargs[k]
    ensures r.request.Some? ==> (r.outcome == Return(Encoder.Str(ProfileUpdated)) <==> platform(r.request.value).Return?)
    ensures r.request.Some? && platform(r.request.value).Raise? ==> r.outcome == platform(r.request.value)
  {
    var args := ProfileRequest(kwargs);
    if args == map[] then
      assert forall k :: k in kwargs.Keys * ProfileFields ==> k in args;
      ProfileRun(None, Return(Encoder.Str(NoValidParams)))
    else
      var outcome := match platform(args)
        case Raise(msg) => Raise(msg)
        case Return(_) => Return(Encoder.Str(ProfileUpdated));
      ProfileRun(Some(args), outcome)
  }

  // ---------------------------------------------------------------- resolution

  /** `CUSTOM_METHODS`: the handlers the bridge defines itself. */
  const CustomMethods: set<string> := {"update_profile"}

  function RunCustom(name: string, kwargs: map<string, Json>, b: Bridge): Outcome
    requires name in CustomMethods
  {
    UpdateProfile(kwargs, b.updateProfile).outcome
  }

  /** Where a method name leads. */
  datatype Resolution = Custom | ClientMethod(attr: Attr) | NotCallable | NotFound

  /** The custom table first, then the client's attributes, of which only callable ones run. */
  function Resolve(name: string, surface: map<string, Attr>): (r: Resolution)
    ensures r == Custom <==> name in CustomMethods
    ensures r.ClientMethod? <==> name !in CustomMethods && name in surface && surface[name].callable
    ensures r.ClientMethod? ==> r.attr == surface[name]
    ensures r == NotCallable <==> name !in CustomMethods && name in surface && !surface[name].callable
    ensures r == NotFound <==> name !in CustomMethods && name !in surface
  {
    if name in CustomMethods then Custom
    else if name in surface then
      if surface[name].callable then ClientMethod(surface[name]) else NotCallable
    else NotFound
  }

  /** `method(**params)`: binding fails unless params is an object. A coroutine function is
      awaited and a plain one called inline; either way the outcome is the same, so the
      `suspends` flag is not consulted. */
  function Invoke(name: string, r: Resolution, params: Json, b: Bridge): Outcome
    requires r == Custom || r.ClientMethod?
    requires r == Custom ==> name in CustomMethods
  {
    if !params.JObject? then Raise(b.typeError(ParamsNotMapping(name, params)))
    else
      var kwargs := ToMap(params.members);
      if r == Custom then RunCustom(name, kwargs, b) else b.invoke(name, kwargs)
  }

  /** The envelope for a handler's outcome: what it raised becomes a 500 carrying the text;
      what it returned is serialised, and a serialisation `TypeError` is a 500 as well. */
  function Finish(o: Outcome): (e: Envelope)
    ensures o.Raise? ==> e == Failed(500, o.msg)
    ensures o.Return? ==> (e.Succeeded? <==> Encoder.Encode(o.value).Success?)
    ensures o.Return? && e.Succeeded? ==> Encoder.Encode(o.value) == Success(e.result)
    ensures o.Return? && e.Failed? ==> e == Failed(500, Encoder.Encode(o.value).error)
  {
    match o
    case Raise(msg) => Failed(500, msg)
    case Return(v) =>
      match Encoder.Encode(v)
      case Success(j) => Succeeded(j)
      case Failure(msg) => Failed(500, msg)
  }

  /** Resolution and invocation for a non-empty string method name: a 404 exactly for a
      name found nowhere, a 400 exactly for an attribute that is not callable, and otherwise
      the envelope of running the handler, a success or a 500. */
  function Dispatch(name: string, params: Json, b: Bridge): (e: Envelope)
    ensures e.Code() == 404 <==> name !in CustomMethods && name !in b.surface
    ensures e.Code() == 404 ==> e == Failed(404, NotFoundText(name))
    ensures e.Code() == 400 <==> name !in CustomMethods && name in b.surface && !b.surface[name].callable
    ensures e.Code() == 400 ==> e == Failed(400, NotCallableText(name))
    ensures e.Code() in {200, 400, 404, 500}
  {
    var r := Resolve(name, b.surface);
    match r
    case NotFound => Failed(404, NotFoundText(name))
    case NotCallable => Failed(400, NotCallableText(name))
    case Custom => Finish(Invoke(name, r, params, b))
    case ClientMethod(_) => Finish(Invoke(name, r, params, b))
  }

  /**
   * The decision `handle_call` makes once the body is an object: a missing or falsy method
   * is rejected before anything is resolved; a name that is truthy but not a string trips an
   * interpreter `TypeError` (a 500); a string name is dispatched.
   */
  function Handle(methodName: Option<Json>, params: Json, b: Bridge): (e: Envelope)
    ensures e.Code() in {200, 400, 404, 500}
    ensures e.Code() == 200 <==> e.Status() == "success"
    ensures methodName.None? || !Truthy(methodName.value) ==> e == Failed(400, MethodRequired)
    ensures methodName.Some? && Truthy(methodName.value) && methodName.value.JStr? ==>
              e == Dispatch(methodName.value.s, params, b)
    ensures methodName.Some? && Truthy(methodName.value) && (methodName.value.JArray? || methodName.value.JObject?) ==>
              e == Failed(500, b.typeError(UnhashableName(methodName.value)))
    ensures methodName.Some? && Truthy(methodName.value) && (methodName.value.JInt? || methodName.value.JBool?) ==>
              e == Failed(500, b.typeError(NonStringName(methodName.value)))
  {
    if methodName.None? || !Truthy(methodName.value) then Failed(400, MethodRequired)
    else
      var m := methodName.value;
      match m
      case JStr(name) => Dispatch(name, params, b)
      case JArray(_) => Failed(500, b.typeError(UnhashableName(m)))
      case JObject(_) => Failed(500, b.typeError(UnhashableName(m)))
      case _ => Failed(500, b.typeError(NonStringName(m)))
  }

  /**
   * `handle_call`: a body that is not decodable JSON, or not an object, makes the handler
   * itself fail (its error path reads the still unbound `method_name`); otherwise the
   * `method` member and the `params` member, defaulting to an empty object, decide.
   */
  function HandleCall(body: Option<Json>, b: Bridge): (r: Response)
    ensures r.Fault? <==> body.None? || !body.value.JObject?
    ensures r.Reply? ==> r.envelope.Code() in {200, 400, 404, 500}
    ensures r.Reply? ==> (r.envelope.Code() == 200 <==> r.envelope.Status() == "success")
    ensures r.Reply? ==> r.envelope == Handle(Get(body.value.members, "method"),
                                              Get(body.value.members, "params").GetOr(JObject([])), b)
  {
    match body
    case None => Fault
    case Some(data) =>
      if !data.JObject? then Fault
      else Reply(Handle(Get(data.members, "method"), Get(data.members, "params").GetOr(JObject([])), b))
  }

  // ---------------------------------------------------------------- properties

  /** A body whose method is missing or falsy gets a 400 "Method name is required", and the
      reply is the same whatever the client and the handlers would do. */
  lemma MissingMethodRejected(members: seq<(string, Json)>, b1: Bridge, b2: Bridge)
    requires Get(members, "method").None? || !Truthy(Get(members, "method").value)
    ensures HandleCall(Some(JObject(members)), b1) == Reply(Failed(400, MethodRequired))
    ensures HandleCall(Some(JObject(members)), b1) == HandleCall(Some(JObject(members)), b2)
  {
  }

  /** Leaving `params` out is the same as sending an empty object. */
  lemma ParamsDefaultEmpty(members: seq<(string, Json)>, b: Bridge)
    requires Get(members, "params").None?
    ensures HandleCall(Some(JObject(members)), b)
            == HandleCall(Some(JObject(members + [("params", JObject([]))])), b)
  {
    var extended := members + [("params", JObject([]))];
    assert Get(extended, "params") == Some(JObject([]));
    assert extended[..|extended| - 1] == members;
    assert Get(extended, "method") == Get(members, "method");
  }

  /** A name in the custom table runs the custom handler: the reply does not depend on the
      client's attributes or methods, even one of the same name. */
  lemma CustomTakesPriority(name: string, params: Json, b: Bridge,
                            surface: map<string, Attr>, invoke: (string, map<string, Json>) -> Outcome)
    requires name in CustomMethods
    ensures Dispatch(name, params, b) == Dispatch(name, params, b.(surface := surface, invoke := invoke))
    ensures params.JObject? ==>
              Dispatch(name, params, b) == Finish(UpdateProfile(ToMap(params.members), b.updateProfile).outcome)
  {
  }

  /** A name in neither the custom table nor the client's attributes gets a 404 naming it. */
  lemma UnknownMethodNotFound(members: seq<(string, Json)>, name: string, b: Bridge)
    requires Get(members, "method") == Some(JStr(name)) && name != ""
    requires name !in CustomMethods && name !in b.surface
    ensures HandleCall(Some(JObject(members)), b) == Reply(Failed(404, "Method '" + name + "' not found"))
  {
  }

  /** A client attribute that is not callable gets a 400 (not a 404) naming it. */
  lemma AttributeNotCallable(members: seq<(string, Json)>, name: string, b: Bridge)
    requires Get(members, "method") == Some(JStr(name)) && name != ""
    requires name !in CustomMethods && name in b.surface && !b.surface[name].callable
    ensures HandleCall(Some(JObject(members)), b) == Reply(Failed(400, "Attribute '" + name + "' is not callable"))
  {
  }

  /** A callable client method runs with the request's params object as its keyword
      arguments (no params meaning none): what it raises becomes a 500 carrying the exception
      text, what it returns becomes a success carrying the encoded value. Params that are not
      an object fail the keyword binding with a `TypeError`, a 500. */
  lemma ClientMethodOutcome(members: seq<(string, Json)>, name: string, b: Bridge)
    requires Get(members, "method") == Some(JStr(name)) && name != ""
    requires name !in CustomMethods && name in b.surface && b.surface[name].callable
    ensures var params := Get(members, "params").GetOr(JObject([]));
            && (params.JObject? ==>
                  HandleCall(Some(JObject(members)), b) == Reply(Finish(b.invoke(name, ToMap(params.members)))))
            && (!params.JObject? ==>
                  HandleCall(Some(JObject(members)), b) == Reply(Failed(500, b.typeError(ParamsNotMapping(name, params)))))
    ensures Get(members, "params").None? ==>
              HandleCall(Some(JObject(members)), b) == Reply(Finish(b.invoke(name, map[])))
  {
    var params := Get(members, "params").GetOr(JObject([]));
    assert HandleCall(Some(JObject(members)), b) == Reply(Dispatch(name, params, b));
    assert Resolve(name, b.surface) == ClientMethod(b.surface[name]);
    assert ToMap([]) == map[];
  }

  /** Params that are not an object make any handler that would run fail with the
      interpreter's `TypeError` for `**params`, before the handler is entered. */
  lemma ParamsMustBeObject(name: string, params: Json, b: Bridge)
    requires !params.JObject?
    requires name in CustomMethods || (name in b.surface && b.surface[name].callable)
    ensures Dispatch(name, params, b) == Failed(500, b.typeError(ParamsNotMapping(name, params)))
  {
  }

  /** An example call: setting the bio through `update_profile` succeeds. */
  lemma ScenarioUpdateBio(b: Bridge)
    requires b.updateProfile(map["about" := JStr("new bio")]).Return?
    ensures HandleCall(Some(JObject([("method", JStr("update_profile")),
                                     ("params", JObject([("about", JStr("new bio"))]))])), b)
            == Reply(Succeeded(JStr(ProfileUpdated)))
  {
    var about := [("about", JStr("new bio"))];
    assert ToMap(about) == map["about" := JStr("new bio")];
    assert ProfileRequest(ToMap(about)) == map["about" := JStr("new bio")];
  }

  /** An example call: `update_profile` with no fields answers so, without a platform call. */
  lemma ScenarioUpdateNothing(b: Bridge)
    ensures HandleCall(Some(JObject([("method", JStr("update_profile")), ("params", JObject([]))])), b)
            == Reply(Succeeded(JStr(NoValidParams)))
  {
    assert ToMap([]) == map[];
  }

  /** An example call: an empty body is rejected for want of a method name. */
  lemma ScenarioEmptyBody(b: Bridge)
    ensures HandleCall(Some(JObject([])), b) == Reply(Failed(400, MethodRequired))
  {
  }

  /** An example call: an unknown method is reported as not found. */
  lemma ScenarioUnknown(b: Bridge)
    requires "no_such_operation" !in b.surface
    ensures HandleCall(Some(JObject([("method", JStr("no_such_operation"))])), b)
            == Reply(Failed(404, NotFoundText("no_such_operation")))
  {
    var name := "no_such_operation";
    assert name !in CustomMethods by {
      assert name[0] != "update_profile"[0];
    }
    var members := [("method", JStr(name))];
    assert Get(members, "method") == Some(JStr(name));
    UnknownMethodNotFound(members, name, b);
  }
}

=== FILE: encoder.dfy ===
/**
 * `DateTimeEncoder.default` (main.py) and the walk `json.dumps` makes over a handler's
 * result, calling `default` on every value JSON cannot represent natively.
 */
module Encoder {
  import opened Wrappers
  import opened Json
  import IsoTime

  type Byte = x: int | 0 <= x < 256

  /** A Python value a handler can return. Floats and non-string dict keys are not modelled. */
  datatype Value =
    | Null
    | Bool(b: bool)
    | Int(i: int)
    | Str(s: string)
    | List(items: seq<Value>)
    | Dict(entries: seq<(string, Value)>)
    | Object(obj: PyObject)

  /**
   * Any other object, described by what the encoder can ask of it: whether it is a
   * `datetime`, whether it is `bytes`, whether it is a Telethon `TLObject`, and whether it
   * has some other `to_dict` attribute. For the last two, the field holds what calling
   * `to_dict()` does: return a value, or raise an exception whose text is the failure
   * (calling a `to_dict` that is not callable raises as well).
   */
  datatype PyObject = PyObject(
    typeName: string,
    dateTime: Option<IsoTime.DateTime>,
    bytes: Option<seq<Byte>>,
    tlDict: Option<Result<Value>>,
    toDict: Option<Result<Value>>)

  /** What `default` turns an object into, tagged with the rule that fired. */
  datatype Conversion =
    | Iso(text: string)
    | Octets(data: seq<Byte>)
    | Mapping(dict: Value)
    | ToDictRaised(message: string)
    | NotSerializable(message: string)

  /** `list(b)` of a bytes value: its bytes as Python ints. */
  function ByteList(data: seq<Byte>): (v: Value)
    ensures v.List? && |v.items| == |data|
    ensures forall i :: 0 <= i < |data| ==> v.items[i] == Int(data[i])
  {
    List(seq(|data|, i requires 0 <= i < |data| => Int(data[i])))
  }

  /** The Python value `default` returns for a conversion (its error for a failure). */
  function Converted(c: Conversion): (r: Result<Value>) {
    match c
    case Iso(text) => Success(Str(text))
    case Octets(data) => Success(ByteList(data))
    case Mapping(dict) => Success(dict)
    case ToDictRaised(message) => Failure(message)
    case NotSerializable(message) => Failure(message)
  }

  /** What a call of `to_dict()` gives `default`. */
  function CallToDict(r: Result<Value>): (c: Conversion)
    ensures c.Mapping? <==> r.Success?
    ensures r.Success? ==> c.dict == r.value
    ensures r.Failure? ==> c == ToDictRaised(r.error)
  {
    match r
    case Success(d) => Mapping(d)
    case Failure(e) => ToDictRaised(e)
  }

  /** The `TypeError` text of `JSONEncoder.default` for a type it cannot serialise. */
  function NotSerializableText(typeName: string): string {
    "Object of type " + typeName + " is not JSON serializable"
  }

  /** `DateTimeEncoder.default`: the first rule that applies, in the order datetime, bytes,
      `TLObject`, any object with `to_dict`; otherwise the base class's `TypeError`. */
  function Default(o: PyObject): (c: Conversion)
    ensures c.Iso? <==> o.dateTime.Some?
    ensures c.Iso? ==> IsoTime.ParseIso(c.text) == Some(o.dateTime.value)
    ensures c.Octets? <==> o.dateTime.None? && o.bytes.Some?
    ensures c.Octets? ==> Some(c.data) == o.bytes
    ensures o.dateTime.None? && o.bytes.None? && o.tlDict.Some? ==> c == CallToDict(o.tlDict.value)
    ensures o.dateTime.None? && o.bytes.None? && o.tlDict.None? && o.toDict.Some?
            ==> c == CallToDict(o.toDict.value)
    ensures c.Mapping? ==> Some(Success(c.dict)) == o.tlDict || Some(Success(c.dict)) == o.toDict
    ensures c.ToDictRaised? ==> Some(Failure(c.message)) == o.tlDict || Some(Failure(c.message)) == o.toDict
    ensures c.NotSerializable? <==> o.dateTime.None? && o.bytes.None? && o.tlDict.None? && o.toDict.None?
  {
    if o.dateTime.Some? then
      IsoTime.ParseIsoFormat(o.dateTime.value);
      Iso(IsoTime.IsoFormat(o.dateTime.value))
    else if o.bytes.Some? then Octets(o.bytes.value)
    else if o.tlDict.Some? then CallToDict(o.tlDict.value)
    else if o.toDict.Some? then CallToDict(o.toDict.value)
    else NotSerializable(NotSerializableText(o.typeName))
  }

  // ---------------------------------------------------------------- the json.dumps walk

  /** The first failure among element results, or all their values in order. */
  function Collect<T>(rs: seq<Result<T>>): (r: Result<seq<T>>)
    ensures r.Success? <==> forall i :: 0 <= i < |rs| ==> rs[i].Success?
    ensures r.Success? ==> |r.value| == |rs| && forall i :: 0 <= i < |rs| ==> r.value[i] == rs[i].value
    ensures r.Failure? ==> exists i :: 0 <= i < |rs| && rs[i] == Failure(r.error)
                                       && forall j :: 0 <= j < i ==> rs[j].Success?
  {
    if rs == [] then Success([])
    else
      match rs[0]
      case Failure(e) => Failure(e)
      case Success(x) =>
        match Collect(rs[1..])
        case Failure(e) => Failure(e)
        case Success(xs) => Success([x] + xs)
  }

  /**
   * `json.dumps(v, cls=DateTimeEncoder)`: natives pass through, lists and dicts are walked
   * in order, other objects go through `Default` and its result is encoded in turn. The
   * first `TypeError` met ends the walk.
   */
  function Encode(v: Value): Result<Json>
    decreases v
  {
    match v
    case Null => Success(JNull)
    case Bool(b) => Success(JBool(b))
    case Int(i) => Success(JInt(i))
    case Str(s) => Success(JStr(s))
    case List(items) =>
      var rs := seq(|items|, i requires 0 <= i < |items| => Encode(items[i]));
      var xs :- Collect(rs);
      Success(JArray(xs))
    case Dict(entries) =>
      var rs := seq(|entries|, i requires 0 <= i < |entries| => Encode(entries[i].1));
      var xs :- Collect(rs);
      Success(JObject(seq(|entries|, i requires 0 <= i < |entries| && i < |xs| => (entries[i].0, xs[i]))))
    case Object(o) =>
      match Default(o)
      case Iso(text) => Success(JStr(text))
      case Octets(data) => Success(JArray(seq(|data|, i requires 0 <= i < |data| => JInt(data[i]))))
      case Mapping(dict) => Encode(dict)
      case ToDictRaised(message) => Failure(message)
      case NotSerializable(message) => Failure(message)
  }

  /** The Python value that writes back as the given JSON document: lists and dicts with
      their elements and members in document order, duplicate keys kept. */
  function Embed(j: Json): Value {
    match j
    case JNull => Null
    case JBool(b) => Bool(b)
    case JInt(i) => Int(i)
    case JStr(s) => Str(s)
    case JArray(items) => List(seq(|items|, i requires 0 <= i < |items| => Embed(items[i])))
    case JObject(members) => Dict(seq(|members|, i requires 0 <= i < |members| => (members[i].0, Embed(members[i].1))))
  }

  // ---------------------------------------------------------------- properties

  /** Values that already are JSON are written back unchanged. */
  lemma {:induction false} EncodeEmbed(j: Json)
    ensures Encode(Embed(j)) == Success(j)
  {
    match j
    case JArray(items) =>
      var v := Embed(j);
      forall i | 0 <= i < |items| {
        EncodeEmbed(items[i]);
      }
      var rs := seq(|v.items|, i requires 0 <= i < |v.items| => Encode(v.items[i]));
      assert Collect(rs).value == items;
    case JObject(members) =>
      var v := Embed(j);
      forall i | 0 <= i < |members| {
        EncodeEmbed(members[i].1);
      }
      var rs := seq(|v.entries|, i requires 0 <= i < |v.entries| => Encode(v.entries[i].1));
      var xs := Collect(rs).value;
      assert forall i :: 0 <= i < |members| ==> xs[i] == members[i].1;
      assert seq(|v.entries|, i requires 0 <= i < |v.entries| && i < |xs| => (v.entries[i].0, xs[i])) == members;
    case _ =>
  }

  /** Encoding an object is encoding what `default` returned for it: the datetime and
      bytes rules produce exactly the JSON of their string and int list. */
  lemma EncodeObject(o: PyObject)
    ensures Encode(Object(o)) == (match Converted(Default(o))
                                  case Success(d) => Encode(d)
                                  case Failure(e) => Failure(e))
  {
    match Default(o)
    case Octets(data) =>
      var v := ByteList(data);
      var rs := seq(|v.items|, i requires 0 <= i < |v.items| => Encode(v.items[i]));
      assert Collect(rs).value == seq(|data|, i requires 0 <= i < |data| => JInt(data[i]));
    case _ =>
  }

  /** A datetime is written as its ISO text, whatever else the object offers. */
  lemma EncodeDateTime(o: PyObject)
    requires o.dateTime.Some?
    ensures Encode(Object(o)) == Success(JStr(IsoTime.IsoFormat(o.dateTime.value)))
    ensures IsoTime.ParseIso(Encode(Object(o)).value.s) == Some(o.dateTime.value)
  {
    IsoTime.ParseIsoFormat(o.dateTime.value);
  }

  /** A bytes value (that is not a datetime) is written as a list of the same length whose
      elements are its bytes, each in 0..255. */
  lemma EncodeBytes(o: PyObject)
    requires o.dateTime.None? && o.bytes.Some?
    ensures Encode(Object(o)).Success?
    ensures var j := Encode(Object(o)).value;
            && j.JArray? && |j.items| == |o.bytes.value|
            && forall i :: 0 <= i < |j.items| ==> j.items[i] == JInt(o.bytes.value[i]) && 0 <= j.items[i].i <= 255
  {
  }

  /** A `TLObject` or any other object with `to_dict` is written as the encoding of what
      `to_dict()` returns, and fails with its exception text when it raises; the `TLObject`
      rule is tried first. */
  lemma EncodeToDict(o: PyObject)
    requires o.dateTime.None? && o.bytes.None?
    requires o.tlDict.Some? || o.toDict.Some?
    ensures var call := if o.tlDict.Some? then o.tlDict.value else o.toDict.value;
            && (call.Success? ==> Encode(Object(o)) == Encode(call.value))
            && (call.Failure? ==> Encode(Object(o)) == Failure(call.error))
  {
  }

  /** An object no rule applies to makes the whole encoding fail with the base `TypeError`. */
  lemma EncodeUnsupported(o: PyObject)
    requires o.dateTime.None? && o.bytes.None? && o.tlDict.None? && o.toDict.None?
    ensures Encode(Object(o)) == Failure(NotSerializableText(o.typeName))
  {
  }

  /** A dict encodes exactly when every value does, and then to an object with the same keys
      in the same order, each value encoded. */
  lemma EncodeDictKeys(entries: seq<(string, Value)>)
    ensures Encode(Dict(entries)).Success? <==> forall i :: 0 <= i < |entries| ==> Encode(entries[i].1).Success?
    ensures Encode(Dict(entries)).Success? ==>
              var j := Encode(Dict(entries)).value;
              && j.JObject? && |j.members| == |entries|
              && forall i :: 0 <= i < |entries| ==>
                   j.members[i].0 == entries[i].0 && Encode(entries[i].1) == Success(j.members[i].1)
  {
    var rs := seq(|entries|, i requires 0 <= i < |entries| => Encode(entries[i].1));
    assert forall i :: 0 <= i < |entries| ==> rs[i] == Encode(entries[i].1);
  }

  /** A list encodes element by element: it succeeds exactly when every element does, and
      then holds each element's encoding in order. */
  lemma EncodeListElements(items: seq<Value>)
    ensures Encode(List(items)).Success? <==> forall i :: 0 <= i < |items| ==> Encode(items[i]).Success?
    ensures Encode(List(items)).Success? ==>
              var j := Encode(List(items)).value;
              && j.JArray? && |j.items| == |items|
              && forall i :: 0 <= i < |items| ==> Encode(items[i]) == Success(j.items[i])
  {
    var rs := seq(|items|, i requires 0 <= i < |items| => Encode(items[i]));
    assert forall i :: 0 <= i < |items| ==> rs[i] == Encode(items[i]);
  }
}

=== FILE: isotime.dfy ===
/**
 * `datetime.isoformat()` as the result encoder uses it, and a reader for the text it
 * produces, so that the rendering can be shown to determine the instant it renders.
 */
module IsoTime {
  import opened Wrappers
  import opened Text

  /** The fields of a Python `datetime`; `offset` is the UTC offset in minutes, absent for naive values. */
  datatype Stamp = Stamp(year: int, month: int, day: int, hour: int, minute: int, second: int,
                         microsecond: int, offset: Option<int>)

  predicate IsLeap(y: int) {
    y % 4 == 0 && (y % 100 != 0 || y % 400 == 0)
  }

  function DaysInMonth(y: int, m: int): int
    requires 1 <= m <= 12
  {
    if m == 2 then (if IsLeap(y) then 29 else 28)
    else if m == 4 || m == 6 || m == 9 || m == 11 then 30
    else 31
  }

  /** The ranges `datetime` enforces on construction (years 1..9999, offsets under a day). */
  predicate ValidStamp(t: Stamp) {
    && 1 <= t.year <= 9999
    && 1 <= t.month <= 12
    && 1 <= t.day <= DaysInMonth(t.year, t.month)
    && 0 <= t.hour < 24
    && 0 <= t.minute < 60
    && 0 <= t.second < 60
    && 0 <= t.microsecond < 1000000
    && (t.offset.Some? ==> -1440 < t.offset.value < 1440)
  }

  /** A `datetime` value: a stamp within the ranges Python allows. */
  type DateTime = t: Stamp | ValidStamp(t) witness Stamp(1, 1, 1, 0, 0, 0, 0, None)

  /** The `+HH:MM` / `-HH:MM` suffix of an aware value. */
  function OffsetText(minutes: int): string
    requires -1440 < minutes < 1440
  {
    var a := if minutes < 0 then -minutes else minutes;
    [if minutes < 0 then '-' else '+'] + (Pad(a / 60, 2) + (":" + Pad(a % 60, 2)))
  }

  /** The time-of-day part: `HH:MM:SS`, then `.ffffff` only when the microsecond is not zero,
      then the UTC offset when the value is aware. */
  function ClockText(dt: DateTime): string {
    var frac := if dt.microsecond != 0 then "." + Pad(dt.microsecond, 6) else "";
    var zone := if dt.offset.Some? then OffsetText(dt.offset.value) else "";
    Pad(dt.hour, 2) + (":" + (Pad(dt.minute, 2) + (":" + (Pad(dt.second, 2) + (frac + zone)))))
  }

  /** `dt.isoformat()`: `YYYY-MM-DD`, a `T`, and the time of day. */
  function IsoFormat(dt: DateTime): string {
    Pad(dt.year, 4) + ("-" + (Pad(dt.month, 2) + ("-" + (Pad(dt.day, 2) + ("T" + ClockText(dt))))))
  }

  // ---------------------------------------------------------------- reading the text back

  /** Reads a field of exactly `w` digits from the front of `s`. */
  function ReadDigits(s: string, w: nat): Option<(nat, string)> {
    if |s| >= w && forall i :: 0 <= i < w ==> IsDigit(s[i]) then Some((DigitsValue(s[..w]), s[w..]))
    else None
  }

  /** Reads the literal character `c` from the front of `s`. */
  function ReadChar(s: string, c: char): Option<string> {
    if |s| > 0 && s[0] == c then Some(s[1..]) else None
  }

  /** Reads the optional `.ffffff` part; without it the microsecond is zero. */
  function ReadFraction(s: string): Option<(nat, string)> {
    if |s| > 0 && s[0] == '.' then ReadDigits(s[1..], 6) else Some((0, s))
  }

  /** Reads the optional UTC offset, which must end the text. */
  function ReadZone(s: string): Option<Option<int>> {
    if s == [] then Some(None)
    else if s[0] != '+' && s[0] != '-' then None
    else
      var h :- ReadDigits(s[1..], 2);
      var r :- ReadChar(h.1, ':');
      var m :- ReadDigits(r, 2);
      if m.1 != [] || m.0 >= 60 then None
      else
        var total := h.0 * 60 + m.0;
        Some(Some(if s[0] == '-' then 0 - total else total))
  }

  /** The fields of a time of day: hour, minute, second, microsecond and offset. */
  datatype Clock = Clock(hour: nat, minute: nat, second: nat, microsecond: nat, offset: Option<int>)

  /** Reads text of the shape `ClockText` writes, up to the end of the text. */
  function ReadClock(s: string): Option<Clock> {
    var h :- ReadDigits(s, 2);
    var s1 :- ReadChar(h.1, ':');
    var mi :- ReadDigits(s1, 2);
    var s2 :- ReadChar(mi.1, ':');
    var se :- ReadDigits(s2, 2);
    var f :- ReadFraction(se.1);
    var z :- ReadZone(f.1);
    Some(Clock(h.0, mi.0, se.0, f.0, z))
  }

  /** Reads text of the shape `IsoFormat` writes; absent when the text or the fields are not valid. */
  function ParseIso(s: string): Option<DateTime> {
    var y :- ReadDigits(s, 4);
    var s1 :- ReadChar(y.1, '-');
    var mo :- ReadDigits(s1, 2);
    var s2 :- ReadChar(mo.1, '-');
    var d :- ReadDigits(s2, 2);
    var s3 :- ReadChar(d.1, 'T');
    var c :- ReadClock(s3);
    var t := Stamp(y.0, mo.0, d.0, c.hour, c.minute, c.second, c.microsecond, c.offset);
    if ValidStamp(t) then Some(t) else None
  }

  // ---------------------------------------------------------------- round trip

  lemma ReadPad(n: nat, w: nat, rest: string)
    requires n < Pow10(w)
    ensures ReadDigits(Pad(n, w) + rest, w) == Some((n, rest))
  {
    var s := Pad(n, w) + rest;
    assert s[..w] == Pad(n, w);
    assert s[w..] == rest;
    PadValue(n, w);
  }

  lemma ReadFractionOf(dt: DateTime, rest: string)
    requires rest == [] || rest[0] == '+' || rest[0] == '-'
    ensures ReadFraction((if dt.microsecond != 0 then "." + Pad(dt.microsecond, 6) else "") + rest)
            == Some((dt.microsecond, rest))
  {
    if dt.microsecond != 0 {
      var p := Pad(dt.microsecond, 6);
      assert ("." + p) + rest == "." + (p + rest);
      ReadPad(dt.microsecond, 6, rest);
    } else {
      assert "" + rest == rest;
    }
  }

  lemma ReadZoneOf(minutes: int)
    requires -1440 < minutes < 1440
    ensures ReadZone(OffsetText(minutes)) == Some(Some(minutes))
  {
    var a := if minutes < 0 then -minutes else minutes;
    var s := OffsetText(minutes);
    assert s[1..] == Pad(a / 60, 2) + (":" + Pad(a % 60, 2));
    ReadPad(a / 60, 2, ":" + Pad(a % 60, 2));
    ReadPad(a % 60, 2, "");
    assert Pad(a % 60, 2) + "" == Pad(a % 60, 2);
  }

  /** The time-of-day text reads back as the time-of-day fields. */
  lemma ReadClockOf(dt: DateTime)
    ensures ReadClock(ClockText(dt))
            == Some(Clock(dt.hour, dt.minute, dt.second, dt.microsecond, dt.offset))
  {
    var zone := if dt.offset.Some? then OffsetText(dt.offset.value) else "";
    var frac := if dt.microsecond != 0 then "." + Pad(dt.microsecond, 6) else "";
    if dt.offset.Some? {
      ReadZoneOf(dt.offset.value);
    }
    ReadFractionOf(dt, zone);
    var tail := frac + zone;
    ReadPad(dt.second, 2, tail);
    var t2 := Pad(dt.second, 2) + tail;
    ReadPad(dt.minute, 2, ":" + t2);
    var t1 := Pad(dt.minute, 2) + (":" + t2);
    ReadPad(dt.hour, 2, ":" + t1);
  }

  /** The ISO text of a datetime reads back as that same datetime, offset included. */
  lemma ParseIsoFormat(dt: DateTime)
    ensures ParseIso(IsoFormat(dt)) == Some(dt)
  {
    ReadClockOf(dt);
    var t3 := ClockText(dt);
    ReadPad(dt.day, 2, "T" + t3);
    var t2 := Pad(dt.day, 2) + ("T" + t3);
    ReadPad(dt.month, 2, "-" + t2);
    var t1 := Pad(dt.month, 2) + ("-" + t2);
    ReadPad(dt.year, 4, "-" + t1);
  }

  /** Two datetimes with the same ISO text are the same datetime. */
  lemma IsoFormatInjective(a: DateTime, b: DateTime)
    requires IsoFormat(a) == IsoFormat(b)
    ensures a == b
  {
    ParseIsoFormat(a);
    ParseIsoFormat(b);
  }
}

=== FILE: json.dfy ===
/** Decoded JSON documents, as Python's `json` module hands them to the program. */
module Json {
  import opened Wrappers

  /** A JSON value. Objects keep their members in document order; floats are not modelled. */
  datatype Json =
    | JNull
    | JBool(b: bool)
    | JInt(i: int)
    | JStr(s: string)
    | JArray(items: seq<Json>)
    | JObject(members: seq<(string, Json)>)

  /** Python truthiness of the decoded value (`not x` is false exactly for these). */
  predicate Truthy(j: Json) {
    match j
    case JNull => false
    case JBool(b) => b
    case JInt(i) => i != 0
    case JStr(s) => s != ""
    case JArray(items) => items != []
    case JObject(members) => members != []
  }

  /** `dict.get(key)` on a decoded object: when a key repeats, the last member wins. */
  function Get(members: seq<(string, Json)>, key: string): (r: Option<Json>)
    ensures r.None? <==> forall i :: 0 <= i < |members| ==> members[i].0 != key
    ensures r.Some? ==> exists i :: 0 <= i < |members| && members[i] == (key, r.value)
                                   && forall j :: i < j < |members| ==> members[j].0 != key
  {
    if members == [] then None
    else if members[|members| - 1].0 == key then Some(members[|members| - 1].1)
    else Get(members[..|members| - 1], key)
  }

  /** The keyword-argument mapping `**obj` binds: the Python dict built from the members. */
  function ToMap(members: seq<(string, Json)>): (m: map<string, Json>)
    ensures m.Keys == set i | 0 <= i < |members| :: members[i].0
    ensures forall k :: k in m ==> Get(members, k) == Some(m[k])
  {
    if members == [] then map[]
    else
      var last := members[|members| - 1];
      var init := members[..|members| - 1];
      assert forall i :: 0 <= i < |init| ==> init[i] == members[i];
      ToMap(init)[last.0 := last.1]
  }
}

=== FILE: sender.dfy ===
/**
 * The sending half of ql_send_msg.py: how `send_telegram_message` turns a task into a
 * request for the bridge's `/api/call` and judges the answer, and how `main` chooses its
 * tasks (a send list, else a comma- or line-separated target list sharing one message,
 * else the command line) and counts the successful sends.
 */
module Sender {
  import opened Wrappers
  import opened Json
  import opened Text
  import SendList
  import Dispatch

  // ---------------------------------------------------------------- target coercion

  /** What the request carries as `entity`: a numeric id or the target text as given. */
  datatype Target = Id(id: int) | Name(name: string)

  /** The shapes the sender converts to an integer: digits, or `-` followed by digits. */
  predicate Numeric(t: string) {
    IsDigits(t) || (|t| > 1 && t[0] == '-' && IsDigits(t[1..]))
  }

  /** The longest digit string `int` converts (`sys.get_int_max_str_digits()`, 4300 by default
      in CPython 3.11 and in the security releases that introduced it); a longer one makes
      `int` raise `ValueError`. */
  const MaxStrDigits: nat := 4300

  /** The number of digits written in a target, a leading `-` not counted. */
  function DigitCount(t: string): nat {
    if t != [] && t[0] == '-' then |t| - 1 else |t|
  }

  /** `int(target)` when the target is `isdigit()` or `-` then `isdigit()` and `int` accepts
      its length; the target itself otherwise (user names, phone numbers, anything else, and
      digit strings whose `ValueError` the sender catches). */
  function Coerce(t: string): (r: Target)
    ensures r.Id? <==> Numeric(t) && DigitCount(t) <= MaxStrDigits
    ensures r.Id? ==> r.id == ParseInt(t)
    ensures r.Name? ==> r.name == t
  {
    if Numeric(t) && DigitCount(t) <= MaxStrDigits then Id(ParseInt(t)) else Name(t)
  }

  /** The decimal text of an integer is coerced back to that integer when `int` accepts its
      length, and is sent as text otherwise. */
  lemma CoerceIntText(n: int)
    ensures DigitCount(IntToString(n)) <= MaxStrDigits ==> Coerce(IntToString(n)) == Id(n)
    ensures DigitCount(IntToString(n)) > MaxStrDigits ==> Coerce(IntToString(n)) == Name(IntToString(n))
  {
    var s := IntToString(n);
    if n < 0 {
      assert s[1..] == NatToString(-n);
      NatToStringValue(-n);
    } else {
      NatToStringValue(n);
    }
  }

  /** A digit string longer than `int` accepts is sent as text, for instance 4301 ones. */
  lemma CoerceOverlongKeepsText()
    ensures var t := seq(MaxStrDigits + 1, i => '1');
            Coerce(t) == Name(t)
  {
    var t := seq(MaxStrDigits + 1, i => '1');
    assert DigitCount(t) == MaxStrDigits + 1 by {
      assert t[0] == '1';
    }
  }

  /** User names (`@…`), phone numbers (`+…`) and a lone `-` are sent as text. */
  lemma CoerceKeepsNames(t: string)
    requires t != [] && (t[0] == '@' || t[0] == '+' || t == "-")
    ensures Coerce(t) == Name(t)
  {
  }

  /** Leading zeros are dropped by the conversion, so two spellings give one id. */
  lemma CoerceLeadingZeros()
    ensures Coerce("007") == Id(7)
    ensures Coerce("-007") == Id(-7)
  {
    assert DigitsValue("0") == 0 by {
      assert "0"[..0] == "";
    }
    assert DigitsValue("00") == 0 by {
      assert "00"[..1] == "0";
    }
    assert DigitsValue("007") == 7 by {
      assert "007"[..2] == "00";
    }
    assert "-007"[1..] == "007";
  }

  // ---------------------------------------------------------------- one send

  function EntityJson(t: Target): Json {
    match t
    case Id(n) => JInt(n)
    case Name(s) => JStr(s)
  }

  /** The body posted to the bridge: a `send_message` call with `entity` and `message`. */
  function Payload(target: string, message: string): Json {
    JObject([("method", JStr("send_message")),
             ("params", JObject([("entity", EntityJson(Coerce(target))), ("message", JStr(message))]))])
  }

  /** What the post brought back: a status code and the body decoded as JSON (absent when it
      is not JSON), or nothing at all (refused connection, timeout, any other exception). */
  datatype HttpReply = Answered(statusCode: int, body: Option<Json>) | NoAnswer

  /** Whether the reply reports a sent message: code 200 and a JSON object whose `status`
      (the last such member, as `dict.get` reads it) is the string `"success"`. */
  predicate Delivered(reply: HttpReply) {
    && reply.Answered? && reply.statusCode == 200
    && reply.body.Some? && reply.body.value.JObject?
    && Get(reply.body.value.members, "status") == Some(JStr("success"))
  }

  /** One call of `send_telegram_message`: the request it posted, if any, and its verdict. */
  datatype Attempt = Attempt(request: Option<Json>, ok: bool)

  /**
   * `send_telegram_message(target, message)` given the reply its post would get: an empty
   * target or message fails before any request is built; otherwise the payload is posted
   * and the send succeeds exactly when the reply is `Delivered`.
   */
  function SendMessage(target: string, message: string, reply: HttpReply): (a: Attempt)
    ensures a.request.None? <==> target == "" || message == ""
    ensures a.request.Some? ==> a.request.value == Payload(target, message)
    ensures a.ok <==> target != "" && message != "" && Delivered(reply)
  {
    if target == "" || message == "" then Attempt(None, false)
    else Attempt(Some(Payload(target, message)), Delivered(reply))
  }

  /** How the bridge's answer to a call reaches the sender: an envelope as JSON with its
      code, or, when the handler itself fails, the server's plain-text 500 page. */
  function ReplyOf(r: Dispatch.Response): HttpReply {
    match r
    case Reply(e) => Answered(e.Code(), Some(e.ToJson()))
    case Fault => Answered(500, None)
  }

  /** Against the bridge, a send counts as successful exactly when the call succeeded there. */
  lemma DeliveredIffSucceeded(body: Option<Json>, b: Dispatch.Bridge)
    ensures Delivered(ReplyOf(Dispatch.HandleCall(body, b)))
            <==> Dispatch.HandleCall(body, b).Reply? && Dispatch.HandleCall(body, b).envelope.Succeeded?
  {
    var r := Dispatch.HandleCall(body, b);
    if r.Reply? && r.envelope.Failed? {
      var members := r.envelope.ToJson().members;
      assert Get(members, "status") == Some(JStr("error"));
      assert "error"[0] != "success"[0];
    }
  }

  /** The posted payload makes the bridge call the client's `send_message` with exactly the
      coerced entity and the message as keyword arguments. */
  lemma PayloadCallsSendMessage(target: string, message: string, b: Dispatch.Bridge)
    requires "send_message" in b.surface && b.surface["send_message"].callable
    ensures Dispatch.HandleCall(Some(Payload(target, message)), b)
            == Dispatch.Reply(Dispatch.Finish(b.invoke("send_message",
                 map["entity" := EntityJson(Coerce(target)), "message" := JStr(message)])))
  {
    var name := "send_message";
    assert name !in Dispatch.CustomMethods by {
      assert name[0] != "update_profile"[0];
    }
    assert "method" != "params" by {
      assert "method"[0] != "params"[0];
    }
    assert "entity" != "message" by {
      assert "entity"[0] != "message"[0];
    }
    var p := Payload(target, message);
    var params := p.members[1].1;
    assert Get(p.members, "method") == Some(JStr(name));
    assert Get(p.members, "params") == Some(params);
    assert ToMap(params.members) == map["entity" := EntityJson(Coerce(target)), "message" := JStr(message)];
    Dispatch.ClientMethodOutcome(p.members, name, b);
  }

  // ---------------------------------------------------------------- target lists

  /** The text with every comma turned into a line feed. */
  function ReplaceCommas(s: string): (r: string)
    ensures |r| == |s|
    ensures forall i :: 0 <= i < |s| ==> r[i] == (if s[i] == ',' then '\n' else s[i])
  {
    seq(|s|, i requires 0 <= i < |s| => if s[i] == ',' then '\n' else s[i])
  }

  predicate NoComma(s: string) {
    forall i :: 0 <= i < |s| ==> s[i] != ','
  }

  /** A piece that is kept as a target: one with anything left after stripping. */
  predicate NonBlank(t: string) {
    t != []
  }

  /** Each line stripped, the empty ones dropped, the order kept. */
  function KeepStripped(lines: seq<string>): (ts: seq<string>)
    ensures |ts| <= |lines|
    ensures forall i :: 0 <= i < |ts| ==> ts[i] != [] && Trimmed(ts[i])
  {
    if lines == [] then []
    else
      var t := Strip(lines[0]);
      (if NonBlank(t) then [t] else []) + KeepStripped(lines[1..])
  }

  /** The targets of a raw target list: commas read as line breaks, the lines stripped, the
      empty ones dropped. */
  function SplitTargets(raw: string): (ts: seq<string>)
    ensures forall i :: 0 <= i < |ts| ==> ts[i] != [] && Trimmed(ts[i])
  {
    KeepStripped(SplitLines(ReplaceCommas(raw)))
  }

  /** `KeepStripped` is the strip-and-filter pass over the lines: every line stripped, the
      empty ones dropped, all the others kept, in their order. */
  lemma {:induction false} KeepStrippedSelect(lines: seq<string>) returns (idx: seq<nat>)
    ensures StrippedSelection(lines, NonBlank, KeepStripped(lines), idx)
  {
    if lines == [] {
      idx := [];
    } else {
      var later := KeepStrippedSelect(lines[1..]);
      if NonBlank(Strip(lines[0])) {
        SelectionTake(lines, NonBlank, KeepStripped(lines[1..]), later);
        idx := [0] + Shift(later);
      } else {
        SelectionSkip(lines, NonBlank, KeepStripped(lines[1..]), later);
        idx := Shift(later);
      }
    }
  }


  /** The targets are the pieces of the list, cut at commas and line boundaries, each
      stripped, the empty ones dropped, the others kept in order. */
  lemma SplitTargetsSelect(raw: string) returns (idx: seq<nat>)
    ensures StrippedSelection(SplitLines(ReplaceCommas(raw)), NonBlank, SplitTargets(raw), idx)
  {
    idx := KeepStrippedSelect(SplitLines(ReplaceCommas(raw)));
  }


  lemma SplitPiecesExample()
    ensures SplitLines(ReplaceCommas("a, b")) == ["a", " b"]
  {
    assert ReplaceCommas("a, b") == "a\n b";
    SplitLinesCons("a", " b");
    assert "a" + "\n" + " b" == "a\n b";
    assert FirstBreak(" b") == 2;
  }

  lemma KeepPiecesExample()
    ensures KeepStripped(["a", " b"]) == ["a", "b"]
  {
    assert Strip(" b") == "b" by {
      assert StripStart(" b") == 1;
      assert StripEnd(" b") == 2;
    }
    StripTrimmed("a");
    assert ["a", " b"][1..] == [" b"];
  }

  /** For example, `"a, b"` gives the targets `a` and `b`: the space after the comma is
      stripped away. */
  lemma SplitTargetsExample()
    ensures SplitTargets("a, b") == ["a", "b"]
  {
    SplitPiecesExample();
    KeepPiecesExample();
  }



  /** `splitlines` of text without commas gives lines without commas. */
  lemma {:induction false} SplitLinesNoComma(s: string)
    requires NoComma(s)
    ensures forall i :: 0 <= i < |SplitLines(s)| ==> NoComma(SplitLines(s)[i])
    decreases |s|
  {
    if s != [] {
      var k := FirstBreak(s);
      if k < |s| {
        var next := if s[k] == '\r' && k + 1 < |s| && s[k + 1] == '\n' then k + 2 else k + 1;
        SplitLinesNoComma(s[next..]);
      }
    }
  }

  /** Stripping and dropping keeps lines free of commas and line breaks. */
  lemma {:induction false} KeepStrippedSeparated(lines: seq<string>)
    requires forall j :: 0 <= j < |lines| ==> NoComma(lines[j]) && NoLineBreak(lines[j])
    ensures forall i :: 0 <= i < |KeepStripped(lines)| ==>
              NoComma(KeepStripped(lines)[i]) && NoLineBreak(KeepStripped(lines)[i])
  {
    if lines != [] {
      StripIsSlice(lines[0]);
      KeepStrippedSeparated(lines[1..]);
    }
  }

  /** A target from the list holds no separator: no comma and no line break. */
  lemma SplitTargetsSeparated(raw: string)
    ensures forall i :: 0 <= i < |SplitTargets(raw)| ==>
              NoComma(SplitTargets(raw)[i]) && NoLineBreak(SplitTargets(raw)[i])
  {
    var text := ReplaceCommas(raw);
    SplitLinesNoComma(text);
    KeepStrippedSeparated(SplitLines(text));
  }

  /** The targets joined with commas. */
  function JoinCommas(ts: seq<string>): string {
    if |ts| == 0 then ""
    else if |ts| == 1 then ts[0]
    else ts[0] + "," + JoinCommas(ts[1..])
  }

  lemma ReplaceCommasAppend(a: string, b: string)
    ensures ReplaceCommas(a + b) == ReplaceCommas(a) + ReplaceCommas(b)
  {
  }

  lemma {:induction false} ReplaceCommasJoin(ts: seq<string>)
    requires forall i :: 0 <= i < |ts| ==> NoComma(ts[i])
    ensures ReplaceCommas(JoinCommas(ts)) == JoinLines(ts)
  {
    if |ts| == 1 {
      assert ReplaceCommas(ts[0]) == ts[0];
    } else if |ts| > 1 {
      ReplaceCommasJoin(ts[1..]);
      ReplaceCommasAppend(ts[0] + ",", JoinCommas(ts[1..]));
      ReplaceCommasAppend(ts[0], ",");
      assert ReplaceCommas(ts[0]) == ts[0];
      assert ReplaceCommas(",") == "\n";
    }
  }

  lemma {:induction false} KeepStrippedClean(ts: seq<string>)
    requires forall i :: 0 <= i < |ts| ==> ts[i] != [] && Trimmed(ts[i])
    ensures KeepStripped(ts) == ts
  {
    if ts != [] {
      StripTrimmed(ts[0]);
      KeepStrippedClean(ts[1..]);
    }
  }

  /** Targets written as a comma-separated list are read back as the same targets, in the
      same order. */
  lemma SplitJoinCommas(ts: seq<string>)
    requires forall i :: 0 <= i < |ts| ==>
               ts[i] != [] && Trimmed(ts[i]) && NoComma(ts[i]) && NoLineBreak(ts[i])
    ensures SplitTargets(JoinCommas(ts)) == ts
  {
    ReplaceCommasJoin(ts);
    SplitJoinLines(ts);
    KeepStrippedClean(ts);
  }

  // ---------------------------------------------------------------- choosing the tasks

  /** The script's settings: the values edited at its top, the environment variables
      (absent when unset), and the command line (`sys.argv`, script name first). */
  datatype Config = Config(
    manualSendList: string, manualTarget: string, manualMessage: string,
    envSendList: Option<string>, envTarget: Option<string>, envMessage: Option<string>,
    argv: seq<string>)

  /** The send list `main` parses: the edited one when it has any non-whitespace content
      (comment lines included), otherwise `TG_SEND_LIST`. */
  function SendListSource(c: Config): (raw: Option<string>)
    ensures !AllSpace(c.manualSendList) ==> raw == Some(c.manualSendList)
    ensures AllSpace(c.manualSendList) ==> raw == c.envSendList
  {
    StripEmpty(c.manualSendList);
    if c.manualSendList != "" && Strip(c.manualSendList) != "" then Some(c.manualSendList)
    else c.envSendList
  }

  /** A setting that Python reads as true: present and not empty. */
  predicate Given(o: Option<string>) {
    o.Some? && o.value != ""
  }

  /** The tasks without a usable send list: one per listed target, all with the default
      message, when both are given; otherwise the command line's target and message. */
  function Fallback(targetRaw: Option<string>, defaultMessage: Option<string>, argv: seq<string>)
    : (tasks: seq<SendList.Task>)
    ensures Given(targetRaw) && Given(defaultMessage) ==>
              var targets := SplitTargets(targetRaw.value);
              && |tasks| == |targets|
              && forall i :: 0 <= i < |targets| ==> tasks[i] == SendList.Task(targets[i], defaultMessage.value)
    ensures !(Given(targetRaw) && Given(defaultMessage)) ==>
              tasks == (if |argv| > 2 then [SendList.Task(argv[1], argv[2])] else [])
  {
    if Given(targetRaw) && Given(defaultMessage) then
      var targets := SplitTargets(targetRaw.value);
      seq(|targets|, i requires 0 <= i < |targets| => SendList.Task(targets[i], defaultMessage.value))
    else if |argv| > 2 then [SendList.Task(argv[1], argv[2])]
    else []
  }

  /**
   * The tasks `main` runs: those of the send list when it yields any, the fallback tasks
   * otherwise. The default message is the same for both.
   */
  function PlanTasks(c: Config): (tasks: seq<SendList.Task>)
    ensures var defaultMessage := SendList.Prefer(c.manualMessage, c.envMessage);
            var listed := SendList.ParseSendList(SendListSource(c), defaultMessage);
            && (listed != [] ==> tasks == listed)
            && (listed == [] ==> tasks == Fallback(SendList.Prefer(c.manualTarget, c.envTarget), defaultMessage, c.argv))
  {
    var defaultMessage := SendList.Prefer(c.manualMessage, c.envMessage);
    var listed := SendList.ParseSendList(SendListSource(c), defaultMessage);
    if listed != [] then listed
    else Fallback(SendList.Prefer(c.manualTarget, c.envTarget), defaultMessage, c.argv)
  }

  /** Every planned task has a target and a message unless it comes from the command line. */
  lemma PlannedTasksComplete(c: Config)
    requires |c.argv| > 2 ==> c.argv[1] != "" && c.argv[2] != ""
    ensures forall i :: 0 <= i < |PlanTasks(c)| ==> PlanTasks(c)[i].target != "" && PlanTasks(c)[i].message != ""
  {
  }

  /** An edited send list of nothing but comment lines is still "filled in": the
      `TG_SEND_LIST` variable is then never read, whatever it holds. */
  lemma CommentedListHidesEnvironment(c: Config, env: Option<string>)
    requires !AllSpace(c.manualSendList)
    ensures PlanTasks(c) == PlanTasks(c.(envSendList := env))
  {
    var c2 := c.(envSendList := env);
    assert SendListSource(c2) == SendListSource(c);
  }

  // ---------------------------------------------------------------- the batch

  /** Whether the send of task `i` succeeds. */
  predicate Sent(tasks: seq<SendList.Task>, net: nat -> HttpReply, i: nat)
    requires i < |tasks|
  {
    SendMessage(tasks[i].target, tasks[i].message, net(i)).ok
  }

  /** The number of the first `n` tasks whose send succeeds, the `i`-th post answered by `net(i)`. */
  function SuccessCount(tasks: seq<SendList.Task>, net: nat -> HttpReply, n: nat): (count: nat)
    requires n <= |tasks|
    ensures count <= n
  {
    if n == 0 then 0
    else SuccessCount(tasks, net, n - 1)
         + (if Sent(tasks, net, n - 1) then 1 else 0)
  }

  /** Every send succeeded exactly when the count reaches the number of tasks. */
  lemma {:induction false} AllSentIff(tasks: seq<SendList.Task>, net: nat -> HttpReply, n: nat)
    requires n <= |tasks|
    ensures SuccessCount(tasks, net, n) == n
            <==> forall i :: 0 <= i < n ==> Sent(tasks, net, i)
  {
    if n > 0 {
      AllSentIff(tasks, net, n - 1);
    }
  }

  /** The sending loop of `main`: one send per task, in order, counting the successes. */
  method SendAll(tasks: seq<SendList.Task>, net: nat -> HttpReply) returns (successCount: nat)
    ensures successCount == SuccessCount(tasks, net, |tasks|)
    ensures successCount <= |tasks|
  {
    successCount := 0;
    var i := 0;
    while i < |tasks|
      invariant i <= |tasks|
      invariant successCount == SuccessCount(tasks, net, i)
    {
      var attempt := SendMessage(tasks[i].target, tasks[i].message, net(i));
      if attempt.ok {
        successCount := successCount + 1;
      }
      i := i + 1;
    }
  }

  /** `main`: plan the tasks; with none it stops before sending anything, otherwise it sends
      them all and reports how many succeeded. */
  method RunBatch(c: Config, net: nat -> HttpReply) returns (tasks: seq<SendList.Task>, successCount: nat)
    ensures tasks == PlanTasks(c)
    ensures tasks == [] ==> successCount == 0
    ensures successCount == SuccessCount(tasks, net, |tasks|) && successCount <= |tasks|
  {
    tasks := PlanTasks(c);
    if tasks == [] {
      return tasks, 0;
    }
    successCount := SendAll(tasks, net);
  }
}

=== FILE: sendlist.dfy ===
/**
 * `parse_send_list` (ql_send_msg.py): one send task per configuration line of the form
 * `target  message`, blank lines and `#` comments skipped, target-only lines completed
 * with the default message when there is one.
 */
module SendList {
  import opened Wrappers
  import opened Text

  /** One message to send: the target (user name, phone number or numeric id) and the text. */
  datatype Task = Task(target: string, message: string)

  /** A stripped line that can yield a task: not blank and not a `#` comment. */
  predicate IsEntry(line: string) {
    line != [] && line[0] != '#'
  }

  /** The stripped lines that are neither blank nor comments, in their original order. */
  function Entries(lines: seq<string>): (es: seq<string>)
    ensures |es| <= |lines|
    ensures forall i :: 0 <= i < |es| ==> IsEntry(es[i]) && Trimmed(es[i])
  {
    if lines == [] then []
    else
      var line := Strip(lines[0]);
      (if IsEntry(line) then [line] else []) + Entries(lines[1..])
  }

  /** A setting edited in the script wins over its environment variable unless it is empty;
      the variable is absent when unset. The default message of target-only lines is chosen
      this way from `MANUAL_MESSAGE` and `TG_MESSAGE`. */
  function Prefer(manual: string, env: Option<string>): (d: Option<string>)
    ensures manual != "" ==> d == Some(manual)
    ensures manual == "" ==> d == env
  {
    if manual != "" then Some(manual) else env
  }

  /**
   * The task an entry line yields, from `split(None, 1)` of the line. With two parts it is
   * the first token and the rest, the rest's inner spacing untouched; a lone target takes
   * the default message, and without a non-empty default the line yields nothing.
   */
  function ParseLine(line: string, defaultMessage: Option<string>): (t: Option<Task>)
    requires IsEntry(line) && Trimmed(line)
    ensures t.None? <==> NoSpace(line) && (defaultMessage.None? || defaultMessage.value == "")
    ensures t.Some? ==> t.value.target != [] && NoSpace(t.value.target) && t.value.target[0] != '#'
                        && t.value.message != []
    ensures t.Some? && NoSpace(line) ==> t.value == Task(line, defaultMessage.value)
    ensures t.Some? && !NoSpace(line) ==> Splits(line, t.value.target, t.value.message)
  {
    SplitTrimmed(line);
    var parts := SplitFirst(line);
    if |parts| >= 2 then Some(Task(parts[0], parts[1]))
    else if defaultMessage.Some? && defaultMessage.value != "" then Some(Task(parts[0], defaultMessage.value))
    else None
  }

  /** The tasks of a sequence of entry lines, in line order. */
  function ParseLines(entries: seq<string>, defaultMessage: Option<string>): (tasks: seq<Task>)
    requires forall i :: 0 <= i < |entries| ==> IsEntry(entries[i]) && Trimmed(entries[i])
    ensures |tasks| <= |entries|
    ensures forall i :: 0 <= i < |tasks| ==>
              tasks[i].target != [] && NoSpace(tasks[i].target) && tasks[i].target[0] != '#'
              && tasks[i].message != []
  {
    if entries == [] then []
    else
      var head := match ParseLine(entries[0], defaultMessage)
        case Some(t) => [t]
        case None => [];
      head + ParseLines(entries[1..], defaultMessage)
  }

  /** `parse_send_list(raw_list)`: nothing for an absent or empty list, otherwise the tasks of
      its entry lines. `defaultMessage` is the default the caller resolved. */
  function ParseSendList(raw: Option<string>, defaultMessage: Option<string>): (tasks: seq<Task>)
    ensures raw.None? || raw.value == "" ==> tasks == []
    ensures raw.Some? ==> |tasks| <= |Entries(SplitLines(raw.value))|
    ensures forall i :: 0 <= i < |tasks| ==>
              tasks[i].target != [] && NoSpace(tasks[i].target) && tasks[i].target[0] != '#'
              && tasks[i].message != []
  {
    if raw.None? || raw.value == "" then []
    else ParseLines(Entries(SplitLines(raw.value)), defaultMessage)
  }

  // ---------------------------------------------------------------- properties

  /** Lines are read independently and in order: the tasks of two blocks of lines are the
      tasks of the first followed by those of the second. */
  lemma {:induction false} EntriesAppend(a: seq<string>, b: seq<string>)
    ensures Entries(a + b) == Entries(a) + Entries(b)
  {
    if a != [] {
      assert (a + b)[1..] == a[1..] + b;
      EntriesAppend(a[1..], b);
    } else {
      assert a + b == b;
    }
  }

  lemma AppendAssoc<T>(x: seq<T>, y: seq<T>, z: seq<T>)
    ensures x + (y + z) == (x + y) + z
  {
  }

  /** The tasks of entry lines are those of the first line followed by those of the rest. */
  lemma ParseLinesCons(entries: seq<string>, d: Option<string>)
    requires entries != []
    requires forall i :: 0 <= i < |entries| ==> IsEntry(entries[i]) && Trimmed(entries[i])
    ensures ParseLines(entries, d) == ParseLines([entries[0]], d) + ParseLines(entries[1..], d)
  {
    assert [entries[0]][1..] == [];
  }

  lemma {:induction false} ParseLinesAppend(a: seq<string>, b: seq<string>, d: Option<string>)
    requires forall i :: 0 <= i < |a| ==> IsEntry(a[i]) && Trimmed(a[i])
    requires forall i :: 0 <= i < |b| ==> IsEntry(b[i]) && Trimmed(b[i])
    ensures ParseLines(a + b, d) == ParseLines(a, d) + ParseLines(b, d)
  {
    if a == [] {
      assert a + b == b;
    } else {
      var ab := a + b;
      var head := ParseLines([a[0]], d);
      assert ParseLines(ab, d) == head + ParseLines(a[1..] + b, d) by {
        assert ab[0] == a[0] && ab[1..] == a[1..] + b;
        ParseLinesCons(ab, d);
      }
      assert ParseLines(a, d) == head + ParseLines(a[1..], d) by {
        ParseLinesCons(a, d);
      }
      ParseLinesAppend(a[1..], b, d);
      AppendAssoc(head, ParseLines(a[1..], d), ParseLines(b, d));
    }
  }

  /** `Entries` is the strip-and-filter pass over the lines: every line stripped, the blank
      ones and the comments dropped, all the others kept, in their order. */
  lemma {:induction false} EntriesSelect(lines: seq<string>) returns (idx: seq<nat>)
    ensures StrippedSelection(lines, IsEntry, Entries(lines), idx)
  {
    if lines == [] {
      idx := [];
    } else {
      var later := EntriesSelect(lines[1..]);
      if IsEntry(Strip(lines[0])) {
        SelectionTake(lines, IsEntry, Entries(lines[1..]), later);
        idx := [0] + Shift(later);
      } else {
        SelectionSkip(lines, IsEntry, Entries(lines[1..]), later);
        idx := Shift(later);
      }
    }
  }

  lemma {:induction false} NoEntries(lines: seq<string>)
    requires forall i :: 0 <= i < |lines| ==> !IsEntry(Strip(lines[i]))
    ensures Entries(lines) == []
  {
    if lines != [] {
      NoEntries(lines[1..]);
    }
  }

  /** A list made only of blank lines and comments yields no task. */
  lemma OnlyCommentsYieldNothing(raw: string, d: Option<string>)
    requires forall i :: 0 <= i < |SplitLines(raw)| ==>
               Strip(SplitLines(raw)[i]) == [] || Strip(SplitLines(raw)[i])[0] == '#'
    ensures ParseSendList(Some(raw), d) == []
  {
    NoEntries(SplitLines(raw));
  }

  /** The lines of a list are read one by one: the tasks of a first line followed by more
      text are that line's tasks followed by the tasks of the text. */
  lemma ParseSendListLines(first: string, rest: string, d: Option<string>)
    requires NoLineBreak(first) && rest != []
    ensures ParseSendList(Some(first + "\n" + rest), d)
            == ParseSendList(Some(first), d) + ParseSendList(Some(rest), d)
  {
    SplitLinesCons(first, rest);
    EntriesAppend([first], SplitLines(rest));
    var e1 := Entries([first]);
    var e2 := Entries(SplitLines(rest));
    ParseLinesAppend(e1, e2, d);
    if first == [] {
      StripTrimmed(first);
      assert e1 == [];
    } else {
      assert SplitLines(first) == [first] by {
        assert FirstBreak(first) == |first|;
      }
    }
  }

  /** A task the configuration format can express: a target of non-space characters not
      starting with `#`, and a message without line breaks or whitespace at its ends. */
  predicate Writable(t: Task) {
    && t.target != [] && NoSpace(t.target) && t.target[0] != '#'
    && t.message != [] && Trimmed(t.message) && NoLineBreak(t.message)
  }

  /** The configuration line for a task: target, one space, message. */
  function LineOf(t: Task): string {
    t.target + " " + t.message
  }

  /** The configuration lines of the tasks, one per task, in order. */
  function Lines(tasks: seq<Task>): (lines: seq<string>)
    ensures |lines| == |tasks|
    ensures forall i :: 0 <= i < |tasks| ==> lines[i] == LineOf(tasks[i])
  {
    if tasks == [] then [] else [LineOf(tasks[0])] + Lines(tasks[1..])
  }

  /** The configuration text listing the tasks one per line. */
  function Render(tasks: seq<Task>): string {
    JoinLines(Lines(tasks))
  }

  /** The line of a writable task is a single stripped entry line. */
  lemma LineOfClean(t: Task)
    requires Writable(t)
    ensures IsEntry(LineOf(t)) && Trimmed(LineOf(t)) && NoLineBreak(LineOf(t))
  {
    var line := LineOf(t);
    var n := |t.target|;
    assert line[|line| - 1] == t.message[|t.message| - 1];
    assert forall k :: 0 <= k < n ==> line[k] == t.target[k];
    assert forall k :: n < k < |line| ==> line[k] == t.message[k - n - 1];
  }

  /** The line of a writable task parses back to the task. */
  lemma ParseLineOf(t: Task, d: Option<string>)
    requires Writable(t)
    ensures IsEntry(LineOf(t)) && Trimmed(LineOf(t))
    ensures ParseLine(LineOf(t), d) == Some(t)
  {
    LineOfClean(t);
    var line := LineOf(t);
    var n := |t.target|;
    assert line[n] == ' ';
    assert line[n + 1] == t.message[0];
    assert forall k :: 0 <= k < n ==> line[k] == t.target[k];
    assert SkipSpace(line, 0) == 0;
    assert SkipToken(line, 0) == n;
    assert SkipSpace(line, n) == n + 1;
    assert line[0..n] == t.target;
    assert line[n + 1..] == t.message;
  }

  lemma LinesClean(tasks: seq<Task>)
    requires forall i :: 0 <= i < |tasks| ==> Writable(tasks[i])
    ensures forall i :: 0 <= i < |tasks| ==>
              IsEntry(Lines(tasks)[i]) && Trimmed(Lines(tasks)[i]) && NoLineBreak(Lines(tasks)[i])
  {
    forall i | 0 <= i < |tasks| {
      LineOfClean(tasks[i]);
    }
  }

  lemma {:induction false} ParseLinesOf(tasks: seq<Task>, d: Option<string>)
    requires forall i :: 0 <= i < |tasks| ==> Writable(tasks[i])
    ensures forall i :: 0 <= i < |tasks| ==> IsEntry(Lines(tasks)[i]) && Trimmed(Lines(tasks)[i])
    ensures ParseLines(Lines(tasks), d) == tasks
  {
    if tasks != [] {
      var lines := Lines(tasks);
      LinesClean(tasks);
      ParseLineOf(tasks[0], d);
      ParseLinesOf(tasks[1..], d);
      assert lines[1..] == Lines(tasks[1..]);
    }
  }

  lemma {:induction false} EntriesOfClean(lines: seq<string>)
    requires forall i :: 0 <= i < |lines| ==> IsEntry(lines[i]) && Trimmed(lines[i])
    ensures Entries(lines) == lines
  {
    if lines != [] {
      StripTrimmed(lines[0]);
      EntriesOfClean(lines[1..]);
    }
  }

  /** Writing tasks out one per line and parsing the text gives back the same tasks, in the
      same order, whatever the default message. */
  lemma ParseRender(tasks: seq<Task>, d: Option<string>)
    requires forall i :: 0 <= i < |tasks| ==> Writable(tasks[i])
    ensures ParseSendList(Some(Render(tasks)), d) == tasks
  {
    if tasks != [] {
      var lines := Lines(tasks);
      var raw := Render(tasks);
      assert raw != "" by {
        assert lines[|lines| - 1] != [];
        JoinLinesNonEmpty(lines);
      }
      assert Entries(SplitLines(raw)) == lines by {
        LinesClean(tasks);
        SplitJoinLines(lines);
        EntriesOfClean(lines);
      }
      ParseLinesOf(tasks, d);
    }
  }
}

=== FILE: text.dfy ===
/**
 * The parts of Python's `str` the batch sender relies on, over ASCII:
 * `isspace`, `strip`, `split(None, 1)`, `splitlines`, `isdigit` and the
 * decimal conversions of `int(...)` and `str(...)`.
 */
module Text {

  /** `c.isspace()` for ASCII: tab, line feed, vertical tab, form feed, carriage return,
      the four separators 0x1C..0x1F, and space. */
  predicate IsSpace(c: char) {
    c == ' ' || (9 <= c as int <= 13) || (28 <= c as int <= 31)
  }

  /** The ASCII line boundaries `str.splitlines` breaks at. */
  predicate IsLineBreak(c: char) {
    (10 <= c as int <= 13) || (28 <= c as int <= 30)
  }

  predicate IsDigit(c: char) {
    '0' <= c <= '9'
  }

  predicate AllSpace(s: string) {
    forall i :: 0 <= i < |s| ==> IsSpace(s[i])
  }

  predicate NoSpace(s: string) {
    forall i :: 0 <= i < |s| ==> !IsSpace(s[i])
  }

  predicate NoLineBreak(s: string) {
    forall i :: 0 <= i < |s| ==> !IsLineBreak(s[i])
  }

  /** `s.isdigit()`: non-empty and every character a decimal digit. */
  predicate IsDigits(s: string) {
    |s| > 0 && forall i :: 0 <= i < |s| ==> IsDigit(s[i])
  }

  /** No whitespace at either end: what `strip` leaves behind. */
  predicate Trimmed(s: string) {
    s == [] || (!IsSpace(s[0]) && !IsSpace(s[|s| - 1]))
  }

  // ---------------------------------------------------------------- scanning

  /** The first position at or after `i` that holds no whitespace (`|s|` if none). */
  function SkipSpace(s: string, i: nat): (j: nat)
    requires i <= |s|
    ensures i <= j <= |s|
    ensures forall k :: i <= k < j ==> IsSpace(s[k])
    ensures j < |s| ==> !IsSpace(s[j])
    decreases |s| - i
  {
    if i < |s| && IsSpace(s[i]) then SkipSpace(s, i + 1) else i
  }

  /** The first position at or after `i` that holds whitespace (`|s|` if none). */
  function SkipToken(s: string, i: nat): (j: nat)
    requires i <= |s|
    ensures i <= j <= |s|
    ensures forall k :: i <= k < j ==> !IsSpace(s[k])
    ensures j < |s| ==> IsSpace(s[j])
    decreases |s| - i
  {
    if i < |s| && !IsSpace(s[i]) then SkipToken(s, i + 1) else i
  }

  /** The end of `s[lo..j]` once its trailing whitespace is dropped. */
  function SkipSpaceBack(s: string, lo: nat, j: nat): (r: nat)
    requires lo <= j <= |s|
    ensures lo <= r <= j
    ensures forall k :: r <= k < j ==> IsSpace(s[k])
    ensures r > lo ==> !IsSpace(s[r - 1])
    decreases j
  {
    if j > lo && IsSpace(s[j - 1]) then SkipSpaceBack(s, lo, j - 1) else j
  }

  // ---------------------------------------------------------------- strip

  /** Where `strip` starts keeping characters. */
  function StripStart(s: string): (k: nat)
    ensures k <= |s|
  {
    SkipSpace(s, 0)
  }

  /** Where `strip` stops keeping characters. */
  function StripEnd(s: string): (e: nat)
    ensures StripStart(s) <= e <= |s|
  {
    SkipSpaceBack(s, StripStart(s), |s|)
  }

  /** `s.strip()`: `s` without its leading and trailing whitespace runs. */
  function Strip(s: string): (r: string)
    ensures Trimmed(r)
    ensures |r| <= |s|
  {
    s[StripStart(s)..StripEnd(s)]
  }

  /** Strip removes only whitespace, and only from the two ends. */
  lemma StripIsSlice(s: string)
    ensures Strip(s) == s[StripStart(s)..StripEnd(s)]
    ensures forall k :: 0 <= k < StripStart(s) ==> IsSpace(s[k])
    ensures forall k :: StripEnd(s) <= k < |s| ==> IsSpace(s[k])
  {
  }

  /** Strip leaves nothing exactly when the text is all whitespace. */
  lemma StripEmpty(s: string)
    ensures Strip(s) == [] <==> AllSpace(s)
  {
    if StripStart(s) < |s| {
      assert !IsSpace(s[StripStart(s)]);
      assert StripEnd(s) > StripStart(s);
    }
  }

  /** A string with no whitespace at its ends is left alone by strip. */
  lemma StripTrimmed(s: string)
    requires Trimmed(s)
    ensures Strip(s) == s
  {
    if s != [] {
      assert StripStart(s) == 0;
      assert StripEnd(s) == |s|;
    }
  }

  /** Stripping twice is stripping once. */
  lemma StripIdempotent(s: string)
    ensures Strip(Strip(s)) == Strip(s)
  {
    StripTrimmed(Strip(s));
  }

  // ---------------------------------------------------------------- stripped selections

  /** Each picked string is the stripped line at its position and is accepted by `keep`. */
  ghost predicate PickedFrom(lines: seq<string>, keep: string -> bool, picked: seq<string>, idx: seq<nat>) {
    && |idx| == |picked|
    && forall j :: 0 <= j < |idx| ==> idx[j] < |lines| && picked[j] == Strip(lines[idx[j]]) && keep(picked[j])
  }

  ghost predicate Increasing(idx: seq<nat>) {
    forall j, j' :: 0 <= j < j' < |idx| ==> idx[j] < idx[j']
  }

  /** Every line that strips to something `keep` accepts has its position among `idx`. */
  ghost predicate Covers(lines: seq<string>, keep: string -> bool, idx: seq<nat>) {
    forall k :: 0 <= k < |lines| && keep(Strip(lines[k])) ==> k in idx
  }

  /**
   * `picked` is what a strip-and-filter pass over `lines` keeps: the stripped lines that
   * `keep` accepts, each taken from the line at `idx[j]`, the positions increasing, and no
   * line that strips to something `keep` accepts left out.
   */
  ghost predicate StrippedSelection(lines: seq<string>, keep: string -> bool, picked: seq<string>, idx: seq<nat>) {
    PickedFrom(lines, keep, picked, idx) && Increasing(idx) && Covers(lines, keep, idx)
  }

  /** The positions shifted by one, as when a line is put in front. */
  function Shift(idx: seq<nat>): (r: seq<nat>)
    ensures |r| == |idx|
    ensures forall j :: 0 <= j < |idx| ==> r[j] == idx[j] + 1
  {
    seq(|idx|, j requires 0 <= j < |idx| => idx[j] + 1)
  }

  lemma ShiftMembers(idx: seq<nat>)
    ensures forall j :: 0 <= j < |idx| ==> idx[j] + 1 in Shift(idx) && idx[j] + 1 in [0] + Shift(idx)
  {
    forall j | 0 <= j < |idx|
      ensures idx[j] + 1 in Shift(idx) && idx[j] + 1 in [0] + Shift(idx)
    {
      assert Shift(idx)[j] == idx[j] + 1;
      assert ([0] + Shift(idx))[j + 1] == idx[j] + 1;
    }
  }

  /** Covering the lines after the first, shifted, covers all the lines when the first is
      rejected or its position 0 is added. */
  lemma CoversCons(lines: seq<string>, keep: string -> bool, idx: seq<nat>, idx': seq<nat>)
    requires lines != [] && Covers(lines[1..], keep, idx)
    requires forall j :: 0 <= j < |idx| ==> idx[j] + 1 in idx'
    requires keep(Strip(lines[0])) ==> 0 in idx'
    ensures Covers(lines, keep, idx')
  {
    forall k | 0 <= k < |lines| && keep(Strip(lines[k]))
      ensures k in idx'
    {
      if k > 0 {
        assert lines[k] == lines[1..][k - 1];
        var j :| 0 <= j < |idx| && idx[j] == k - 1;
      }
    }
  }

  /** A selection from the lines after a rejected first line, shifted, selects the same from
      all the lines. */
  lemma SelectionSkip(lines: seq<string>, keep: string -> bool, picked: seq<string>, idx: seq<nat>)
    requires lines != [] && StrippedSelection(lines[1..], keep, picked, idx)
    requires !keep(Strip(lines[0]))
    ensures StrippedSelection(lines, keep, picked, Shift(idx))
  {
    var rest := lines[1..];
    var idx' := Shift(idx);
    assert PickedFrom(lines, keep, picked, idx') by {
      assert forall j :: 0 <= j < |idx| ==> lines[idx'[j]] == rest[idx[j]];
    }
    assert Covers(lines, keep, idx') by {
      ShiftMembers(idx);
      CoversCons(lines, keep, idx, idx');
    }
  }

  lemma PickedTakeAt(lines: seq<string>, keep: string -> bool, picked: seq<string>, idx: seq<nat>, j: nat)
    requires lines != [] && PickedFrom(lines[1..], keep, picked, idx)
    requires 0 < j <= |idx|
    ensures ([0] + Shift(idx))[j] < |lines|
    ensures ([Strip(lines[0])] + picked)[j] == Strip(lines[([0] + Shift(idx))[j]])
    ensures keep(([Strip(lines[0])] + picked)[j])
  {
    var i := j - 1;
    assert idx[i] < |lines[1..]| && picked[i] == Strip(lines[1..][idx[i]]) && keep(picked[i]);
    assert ([0] + Shift(idx))[j] == idx[i] + 1;
    assert ([Strip(lines[0])] + picked)[j] == picked[i];
  }

  lemma PickedTake(lines: seq<string>, keep: string -> bool, picked: seq<string>, idx: seq<nat>)
    requires lines != [] && PickedFrom(lines[1..], keep, picked, idx)
    requires keep(Strip(lines[0]))
    ensures PickedFrom(lines, keep, [Strip(lines[0])] + picked, [0] + Shift(idx))
  {
    var idx' := [0] + Shift(idx);
    var picked' := [Strip(lines[0])] + picked;
    forall j | 0 <= j < |idx'|
      ensures idx'[j] < |lines| && picked'[j] == Strip(lines[idx'[j]]) && keep(picked'[j])
    {
      if j > 0 {
        PickedTakeAt(lines, keep, picked, idx, j);
      }
    }
  }

  lemma IncreasingTake(idx: seq<nat>)
    requires Increasing(idx)
    ensures Increasing([0] + Shift(idx))
  {
    var idx' := [0] + Shift(idx);
    assert forall j :: 0 < j < |idx'| ==> idx'[j] == idx[j - 1] + 1;
  }

  /** A selection from the lines after an accepted first line, shifted, with position 0 in
      front, selects from all the lines. */
  lemma SelectionTake(lines: seq<string>, keep: string -> bool, picked: seq<string>, idx: seq<nat>)
    requires lines != [] && StrippedSelection(lines[1..], keep, picked, idx)
    requires keep(Strip(lines[0]))
    ensures StrippedSelection(lines, keep, [Strip(lines[0])] + picked, [0] + Shift(idx))
  {
    var idx' := [0] + Shift(idx);
    PickedTake(lines, keep, picked, idx);
    IncreasingTake(idx);
    assert Covers(lines, keep, idx') by {
      ShiftMembers(idx);
      CoversCons(lines, keep, idx, idx');
    }
  }

  // ---------------------------------------------------------------- split(None, 1)

  /**
   * `s.split(None, 1)`: skip leading whitespace; the first token runs to the next
   * whitespace; after the whitespace run that follows it, whatever remains (trailing
   * whitespace included) is the second part. At most two parts, none empty.
   */
  function SplitFirst(s: string): (parts: seq<string>)
    ensures |parts| <= 2
    ensures forall i :: 0 <= i < |parts| ==> parts[i] != []
  {
    var i := SkipSpace(s, 0);
    if i == |s| then []
    else
      var k := SkipToken(s, i);
      var j := SkipSpace(s, k);
      if j == |s| then [s[i..k]] else [s[i..k], s[j..]]
  }

  /** `line` is the token `a`, a non-empty whitespace gap, then `b`, which does not start
      with whitespace. */
  predicate Splits(line: string, a: string, b: string) {
    && a != [] && NoSpace(a) && b != [] && !IsSpace(b[0])
    && |a| < |line| - |b|
    && (forall k :: 0 <= k < |a| ==> line[k] == a[k])
    && (forall k :: 0 <= k < |b| ==> line[|line| - |b| + k] == b[k])
    && (forall k :: |a| <= k < |line| - |b| ==> IsSpace(line[k]))
  }

  /** `split(None, 1)` of text with no whitespace at its ends: no part for empty text, the
      text itself when it holds no whitespace, and otherwise a token, a gap and the rest. */
  lemma SplitTrimmed(line: string)
    requires Trimmed(line)
    ensures line == [] ==> SplitFirst(line) == []
    ensures line != [] && NoSpace(line) ==> SplitFirst(line) == [line]
    ensures !NoSpace(line) ==> |SplitFirst(line)| == 2
                               && Splits(line, SplitFirst(line)[0], SplitFirst(line)[1])
  {
    if line != [] {
      assert SkipSpace(line, 0) == 0;
      var k := SkipToken(line, 0);
      if NoSpace(line) {
        assert k == |line|;
        assert line[0..|line|] == line;
      } else {
        var w :| 0 <= w < |line| && IsSpace(line[w]);
        assert k <= w;
        var j := SkipSpace(line, k);
        assert j < |line|;
        var parts := SplitFirst(line);
        assert parts == [line[0..k], line[j..]];
        assert |parts[0]| == k && |line| - |parts[1]| == j;
      }
    }
  }

  // ---------------------------------------------------------------- splitlines

  /** Index of the first line boundary, or `|s|` when there is none. */
  function FirstBreak(s: string): (k: nat)
    ensures k <= |s|
    ensures forall i :: 0 <= i < k ==> !IsLineBreak(s[i])
    ensures k < |s| ==> IsLineBreak(s[k])
  {
    if s == [] || IsLineBreak(s[0]) then 0
    else 1 + FirstBreak(s[1..])
  }

  /**
   * `s.splitlines()`: the lines between boundaries, boundaries dropped; `\r\n` is one
   * boundary, and a boundary at the very end does not open an empty last line.
   */
  function SplitLines(s: string): (lines: seq<string>)
    ensures forall i :: 0 <= i < |lines| ==> NoLineBreak(lines[i])
    ensures |lines| <= |s|
    ensures s != [] ==> lines != []
    decreases |s|
  {
    if s == [] then []
    else
      var k := FirstBreak(s);
      if k == |s| then [s]
      else
        var next := if s[k] == '\r' && k + 1 < |s| && s[k + 1] == '\n' then k + 2 else k + 1;
        [s[..k]] + SplitLines(s[next..])
  }

  /** Lines joined with `\n`, the layout a configuration block is written in. */
  function JoinLines(lines: seq<string>): string {
    if |lines| == 0 then ""
    else if |lines| == 1 then lines[0]
    else lines[0] + "\n" + JoinLines(lines[1..])
  }

  lemma {:induction false} JoinLinesNonEmpty(lines: seq<string>)
    requires |lines| > 0 && lines[|lines| - 1] != []
    ensures JoinLines(lines) != []
  {
    if |lines| > 1 {
      JoinLinesNonEmpty(lines[1..]);
    }
  }

  /** A line without boundaries followed by `\n` and more text is split off as the first line. */
  lemma SplitLinesCons(a: string, rest: string)
    requires NoLineBreak(a) && rest != []
    ensures SplitLines(a + "\n" + rest) == [a] + SplitLines(rest)
  {
    var s := a + "\n" + rest;
    assert s[|a|] == '\n';
    assert s[..|a|] == a;
    assert FirstBreak(s) == |a|;
    assert s[|a| + 1..] == rest;
  }

  /** `splitlines` undoes `JoinLines` whenever the lines hold no boundary and the last is not empty. */
  lemma {:induction false} SplitJoinLines(lines: seq<string>)
    requires forall i :: 0 <= i < |lines| ==> NoLineBreak(lines[i])
    requires |lines| > 0 ==> lines[|lines| - 1] != []
    ensures SplitLines(JoinLines(lines)) == lines
  {
    if |lines| == 1 {
      var s := lines[0];
      assert s[..|s|] == s;
      assert FirstBreak(s) == |s|;
    } else if |lines| > 1 {
      JoinLinesNonEmpty(lines[1..]);
      SplitLinesCons(lines[0], JoinLines(lines[1..]));
      SplitJoinLines(lines[1..]);
    }
  }

  // ---------------------------------------------------------------- decimal numbers

  function DigitValue(c: char): nat
    requires IsDigit(c)
  {
    (c as int) - ('0' as int)
  }

  function DigitChar(d: nat): (c: char)
    requires d < 10
    ensures IsDigit(c) && DigitValue(c) == d
  {
    ('0' as int + d) as char
  }

  /** The number a string of decimal digits denotes, leading zeros allowed (as `int("007")`). */
  function DigitsValue(s: string): nat
    requires forall i :: 0 <= i < |s| ==> IsDigit(s[i])
  {
    if s == [] then 0 else DigitsValue(s[..|s| - 1]) * 10 + DigitValue(s[|s| - 1])
  }

  /** `int(s)` for a string the batch sender has already checked to be digits or `-` then digits. */
  function ParseInt(s: string): int
    requires IsDigits(s) || (|s| > 1 && s[0] == '-' && IsDigits(s[1..]))
  {
    if s[0] == '-' then 0 - DigitsValue(s[1..]) else DigitsValue(s)
  }

  function Pow10(w: nat): (p: nat)
    ensures p >= 1
  {
    if w == 0 then 1 else 10 * Pow10(w - 1)
  }

  /** `"%0*d" % (w, n)`: `n` written in exactly `w` digits, zero-padded on the left. */
  function Pad(n: nat, w: nat): (s: string)
    requires n < Pow10(w)
    ensures |s| == w
    ensures forall i :: 0 <= i < |s| ==> IsDigit(s[i])
  {
    if w == 0 then "" else Pad(n / 10, w - 1) + [DigitChar(n % 10)]
  }

  /** Reading a padded field back gives the number that was written. */
  lemma {:induction false} PadValue(n: nat, w: nat)
    requires n < Pow10(w)
    ensures DigitsValue(Pad(n, w)) == n
  {
    if w > 0 {
      var s := Pad(n, w);
      assert s[..|s| - 1] == Pad(n / 10, w - 1);
      PadValue(n / 10, w - 1);
    }
  }

  /** `str(n)` for a natural number: its decimal digits, without leading zeros. */
  function NatToString(n: nat): (s: string)
    ensures IsDigits(s)
    ensures |s| > 1 ==> s[0] != '0'
  {
    if n < 10 then [DigitChar(n)] else NatToString(n / 10) + [DigitChar(n % 10)]
  }

  /** `str(n)` for any integer: a minus sign in front of a negative number's digits. */
  function IntToString(n: int): string {
    if n < 0 then "-" + NatToString(-n) else NatToString(n)
  }

  lemma {:induction false} NatToStringValue(n: nat)
    ensures DigitsValue(NatToString(n)) == n
  {
    if n >= 10 {
      var s := NatToString(n);
      assert s[..|s| - 1] == NatToString(n / 10);
      NatToStringValue(n / 10);
    }
  }
}

=== FILE: wrappers.dfy ===
/** Optional values and raise-or-return outcomes, both usable with `:-` for early exit. */
module Wrappers {

  /** A value that may be absent (Python's `None`, a missing key). */
  datatype Option<+T> = None | Some(value: T) {

    predicate IsFailure() {
      None?
    }

    function PropagateFailure<U>(): Option<U>
      requires None?
    {
      None
    }

    function Extract(): T
      requires Some?
    {
      value
    }

    /** The value, or `default` when absent. */
    function GetOr(default: T): T {
      match this
      case Some(v) => v
      case None => default
    }
  }

  /** A computation that either succeeds or raises an exception whose text is `error`. */
  datatype Result<+T> = Success(value: T) | Failure(error: string) {

    predicate IsFailure() {
      Failure?
    }

    function PropagateFailure<U>(): Result<U>
      requires Failure?
    {
      Failure(error)
    }

    function Extract(): T
      requires Success?
    {
      value
    }
  }
}
